=== FILE: README.md ===
# Chat app view-model: a Dafny model

This project models the decision logic of the chat application's view-model
(`LCViewModel`), its one-shot `Event` wrapper and its record types. The
remote document store is an in-memory value: a map of profile documents, a
map of chat documents and a map of message documents. Every remote call and
every listener delivery is an explicit input, so each operation is a pure
function of the view-model state and those inputs.

Modules, one per concern:

- `Optional` (`optional.dfy`): Kotlin's nullable `T?` as `Option<T>`, and the elvis operator.
- `Text` (`text.dfy`): the digit check behind `isDigitsOnly`, and Kotlin's string order `compareTo`, with its order laws proved.
- `Events` (`events.dfy`): `Event<T>` and `getContentOrNull()`.
- `DataTypes` (`data_types.dfy`): `UserData`, `ChatUser`, `ChatData` and `Message` with their defaults, plus `UserData.toMap()`.
- `Remote` (`remote.dfy`): the store value, exceptions, call outcomes and listener snapshots.
- `Snapshots` (`snapshots.dfy`): the two list mappings. Documents whose `toObject` yields null are dropped. Messages are ordered by `sortedBy { it.timeStamp }`, a stable sort with null first.
- `ViewState` (`view_state.dfy`): the view-model's state cells and the callbacks that change them: `handleException`, listener registration and delivery, and `dePopulateMessage`.
- `Edits` (`edits.dfy`): the three optional profile arguments and the update map built from them.
- `Propagation` (`propagation.dfy`): `updateChatDocuments`, the fan-out of a profile edit into the chat documents that embed the user.
- `Profile` (`profile.dfy`): `createOrUpdateProfile` and `uploadProfileImage`.
- `Contacts` (`contacts.dfy`): `onAddChat` and the "other participant" choice used by the screens.
- `Session` (`session.dfy`): start-up, `signUp`, `login`, `logout` and `onSendReply`.

The model follows the code as written; in particular:

- `logout` does not clear the chat list and does not remove any listener.
- `dePopulateMessage` only forgets the current message listener; the listener stays registered. `StaleListenerStillDelivers` shows a left chat's listener overwriting the shown messages.
- A chat-list listener is registered on every profile delivery, not only the first (`RosterListenersAccumulate`).
- The duplicate-chat check compares the two phone numbers, not participant ids.
- `UserData.toMap()` spells the id key "userid", while the stored field is `userId`.

## Model

| member | source | states |
|---|---|---|
| Events.NewEvent | app/src/main/java/com/example/chatapp/data/Event.kt:3-4 | a new event holds its content and is not yet handled |
| Events.GetContentOrNull | app/src/main/java/com/example/chatapp/data/Event.kt:5-11 | a read yields the content exactly when the event was unhandled; afterwards it is handled and its content is unchanged |
| Events.HandledStaysHandled | app/src/main/java/com/example/chatapp/data/Event.kt:6 | once handled, any number of reads yields null every time and leaves the event as it was |
| Events.HandledIsMonotone | app/src/main/java/com/example/chatapp/data/Event.kt:4-8 | the handled flag never goes back to false, and any read sets it |
| Events.DeliveredExactlyOnce | app/src/main/java/com/example/chatapp/data/Event.kt:5-11 | over any n ≥ 1 reads of a new event, exactly one read yields a value: the first, which yields the content |
| DataTypes.DefaultUserData | app/src/main/java/com/example/chatapp/data/DataTypes.kt:3-8 | the default profile has id, name, number and image all equal to "" |
| DataTypes.DefaultChatUser | app/src/main/java/com/example/chatapp/data/DataTypes.kt:23-28 | the default embedded participant has every field equal to "" |
| DataTypes.DefaultChatData | app/src/main/java/com/example/chatapp/data/DataTypes.kt:17-21 | the default chat has id "" and two equal default participants |
| DataTypes.DefaultMessage | app/src/main/java/com/example/chatapp/data/DataTypes.kt:30-34 | the default message has sender, text and time stamp all equal to "" |
| DataTypes.ToMapRoundTrip | app/src/main/java/com/example/chatapp/data/DataTypes.kt:9-14 | `toMap()` has exactly the keys userid, name, number, imageUrl in that order; each key looks up its field; reading the map back gives the profile |
| Snapshots.Decoded | app/src/main/java/com/example/chatapp/LCViewModel.kt:96-98 | the chat list holds a record exactly when a delivered document decodes to it |
| Snapshots.DecodedAppend | app/src/main/java/com/example/chatapp/LCViewModel.kt:96-98 | decoding handles each document on its own: it distributes over concatenation of batches |
| Snapshots.NullDecodingSkipped | app/src/main/java/com/example/chatapp/LCViewModel.kt:70-71 | a document whose `toObject` yields null is dropped without affecting the rest of the batch |
| Snapshots.DecodedKeepsOrder | app/src/main/java/com/example/chatapp/LCViewModel.kt:96-98 | when every document decodes, the list is the batch in delivered order |
| Snapshots.SortByTimeStamp | app/src/main/java/com/example/chatapp/LCViewModel.kt:72 | the result is ascending by time stamp (null first, then string order), is a permutation of the input, and keeps the arrival order of messages sharing a stamp |
| ViewState.ErrorMessage | app/src/main/java/com/example/chatapp/LCViewModel.kt:289-290 | the error text is the custom message if it is non-empty, else the exception's message, else "" |
| ViewState.HandleException | app/src/main/java/com/example/chatapp/LCViewModel.kt:286-295 | a new unhandled event carries the error text, the busy flag is cleared, and no other state cell changes |
| ViewState.ConsumeEvent | app/src/main/java/com/example/chatapp/data/Event.kt:5-11 | reading the current event yields its text only if it is unread, always leaves it marked handled, and changes nothing but its flag |
| ViewState.LatestEventWins | app/src/main/java/com/example/chatapp/LCViewModel.kt:292 | after two publishes without a read, the one read that yields a value yields the second message |
| ViewState.PopulateMessages | app/src/main/java/com/example/chatapp/LCViewModel.kt:62-64 | one more message listener is registered and becomes current; the earlier ones stay registered |
| ViewState.OnMessagesSnapshot | app/src/main/java/com/example/chatapp/LCViewModel.kt:65-75 | a delivered batch replaces the shown messages with its decodable messages, sorted and stable; an error goes through handleException; any registered listener may deliver |
| ViewState.DePopulateMessage | app/src/main/java/com/example/chatapp/LCViewModel.kt:78-81 | the shown messages become empty and the current listener is forgotten, while every registration stays active |
| ViewState.StaleListenerStillDelivers | app/src/main/java/com/example/chatapp/LCViewModel.kt:62-81 | from any registration state, after leaving chat A and opening chat B, a batch from A's listener still replaces the shown messages |
| ViewState.GetUserData | app/src/main/java/com/example/chatapp/LCViewModel.kt:271-273 | the busy flag is set and one more profile listener is registered |
| ViewState.OnProfileSnapshot | app/src/main/java/com/example/chatapp/LCViewModel.kt:273-283 | a delivery replaces the profile (null if the document is missing), clears the busy flag and registers one more chat-list listener; an error reports "Can not retrieve user" |
| ViewState.PopulateChats | app/src/main/java/com/example/chatapp/LCViewModel.kt:83-90 | one chat-list listener, filtered on the current profile's id, is appended after the earlier ones, and nothing else changes |
| ViewState.RosterListenersAccumulate | app/src/main/java/com/example/chatapp/LCViewModel.kt:277-282 | n profile deliveries register n chat-list listeners, and none replaces an earlier one |
| ViewState.OnChatsSnapshot | app/src/main/java/com/example/chatapp/LCViewModel.kt:90-101 | the chat list becomes exactly the batch's non-null decodes, in delivered order and with their multiplicity; an error goes through handleException |
| Edits.Provided | app/src/main/java/com/example/chatapp/LCViewModel.kt:244-247 | the update map has a key for a field exactly when that argument is non-null, with that argument's value |
| Edits.ProvidedEmptyIff | app/src/main/java/com/example/chatapp/LCViewModel.kt:244-248 | the update map is empty exactly when no argument is given |
| Propagation.PathInjective | app/src/main/java/com/example/chatapp/LCViewModel.kt:208-214 | distinct patch keys name distinct nested paths such as "user1.name" |
| Propagation.MatchingSlot | app/src/main/java/com/example/chatapp/LCViewModel.kt:207-215 | the first slot is chosen when its id is the user's, else the second when its id is, else none; the first wins when both match |
| Propagation.ChatPatch | app/src/main/java/com/example/chatapp/LCViewModel.kt:204-215 | all keys lie under the matching slot, with one key per non-null argument holding its value; the patch is empty exactly when the user is in neither slot or no argument is given |
| Propagation.ApplyPatch | app/src/main/java/com/example/chatapp/LCViewModel.kt:219 | an update overwrites exactly the nested fields its keys name and keeps the chat id and both user ids |
| Propagation.UpdateChat | app/src/main/java/com/example/chatapp/LCViewModel.kt:202-221 | no update is issued exactly when the patch is empty; otherwise the user's copy takes every provided field and keeps the rest, and the other participant and the chat id are unchanged |
| Propagation.UpdateChatDocuments | app/src/main/java/com/example/chatapp/LCViewModel.kt:190-226 | a failed query changes nothing and reports the error; otherwise exactly the chats with a non-empty patch are written, and every other document and collection is unchanged |
| Propagation.PropagationReachesEveryChat | app/src/main/java/com/example/chatapp/LCViewModel.kt:190-226 | after a successful fan-out, every landed chat with the user shows the provided fields in the user's copy only; chats without the user, and every chat when no field is given, are unchanged |
| Profile.MergeProfile | app/src/main/java/com/example/chatapp/LCViewModel.kt:231-236 | the full record takes each field from its argument when non-null, else from the in-memory profile, else null, and the id is the account's |
| Profile.ApplyProfileUpdates | app/src/main/java/com/example/chatapp/LCViewModel.kt:244-248 | a partial update overwrites exactly the fields in the map and keeps the rest |
| Profile.PartialUpdateAgreesWithMerge | app/src/main/java/com/example/chatapp/LCViewModel.kt:229-263 | when the stored profile equals the in-memory one, the partial-update branch writes the same record as the create branch |
| Profile.CreateOrUpdateProfile | app/src/main/java/com/example/chatapp/LCViewModel.kt:229-269 | nothing happens without an account; a failed read reports "Can not retrieve user"; an existing profile gets only the provided fields and then the chat fan-out; a failed update reports "Can not update user data"; a failed fan-out query reports "Error updating chat documents"; the message collection is never touched; a missing profile is created from the merged record; after a successful read and write the profile listener is registered again; no other profile changes |
| Profile.UploadProfileImage | app/src/main/java/com/example/chatapp/LCViewModel.kt:167-186 | a failed upload changes no document and publishes the upload error with the busy flag cleared; a successful one stores the URL as the image: an existing profile keeps its stored name and number, and a missing one is created from the merged record; every landed chat with the user shows the URL in the user's copy with name, number and the other participant unchanged; messages, other users' profiles and chats without the user are unchanged |
| Profile.ImageUploadKeepsNameAndNumber | app/src/main/java/com/example/chatapp/LCViewModel.kt:167-171 | an image upload leaves the stored name and number, and the user's name and number in every chat, unchanged |
| Contacts.PairsWithIsUnordered | app/src/main/java/com/example/chatapp/LCViewModel.kt:310-318 | the duplicate query matches a chat exactly when its two numbers, taken unordered, are the requested number and the user's own |
| Contacts.PairsWithIgnoresSlotOrder | app/src/main/java/com/example/chatapp/LCViewModel.kt:310-318 | swapping a chat's participants does not change whether it matches |
| Contacts.FirstProfileWithNumber | app/src/main/java/com/example/chatapp/LCViewModel.kt:321-326 | returns null exactly when no profile has the number, else the least document id among those that do |
| Contacts.FirstMatchUnique | app/src/main/java/com/example/chatapp/LCViewModel.kt:321-326 | the first profile with a number is uniquely determined |
| Contacts.CopyOf | app/src/main/java/com/example/chatapp/LCViewModel.kt:330-341 | the embedded copy carries the profile's id, name, image and number, or nulls without a profile |
| Contacts.AddChat | app/src/main/java/com/example/chatapp/LCViewModel.kt:306-355 | bad input reports "Field can have digits only"; an existing pair reports "Chat already exists"; a failed duplicate query does nothing; a failed user lookup publishes the lookup's error; an unknown number reports "number not found"; a chat is written exactly when every step succeeds, and then it is the one new chat under the fresh id with the current profile first and the partner second, and nothing else changes |
| Contacts.OnAddChat | app/src/main/java/com/example/chatapp/LCViewModel.kt:306-355 | bad input, an existing pair, a failed duplicate query, a failed lookup and an unknown number each have the outcome stated for the branch, with no chat written; a successful link adds exactly one chat, under the fresh id, with the current profile first and the first profile with the number second, and keeps every other chat |
| Contacts.SecondLinkIsDuplicate | app/src/main/java/com/example/chatapp/LCViewModel.kt:310-351 | after a chat is created for a number, asking again for that number reports "Chat already exists" and writes nothing |
| Contacts.OtherParticipant | app/src/main/java/com/example/chatapp/Screens/ChatListScreen.kt:88-92 | the screen shows the second participant when the viewer is the first, else the first |
| Contacts.EachSideSeesTheOther | app/src/main/java/com/example/chatapp/Screens/SingleChatScreen.kt:67 | in a newly linked chat between two different ids, each side is shown the other's copy |
| Session.Init | app/src/main/java/com/example/chatapp/LCViewModel.kt:52-60 | the view-model holds the remembered account and the given store, starts signed in and busy exactly when an account is remembered, and only then registers the profile listener; no message listener is current |
| Session.SignUp | app/src/main/java/com/example/chatapp/LCViewModel.kt:117-142 | an empty field reports "Please fill all the fields "; a taken number reports "Number Already exists"; a rejected account reports "Sign Up failed" with the service's error; a failed uniqueness query leaves the busy flag set; a created account always signs in, and only a created account changes the sign-in state, the account or the store; the profile is created with the given name and number |
| Session.Login | app/src/main/java/com/example/chatapp/LCViewModel.kt:144-163 | an empty field reports "Please fill all the fields"; a rejection reports "Log in failed"; success signs in, registers the profile listener and leaves the busy flag set until it delivers, and no other view cell changes |
| Session.Logout | app/src/main/java/com/example/chatapp/LCViewModel.kt:297-304 | signs out, forgets the profile, empties the shown messages and publishes "Logged Out"; the chat list and every listener registration are kept |
| Session.LogoutLeavesProfileListenerActive | app/src/main/java/com/example/chatapp/LCViewModel.kt:271-304 | after login and logout the profile listener is still registered, and its next delivery restores the profile and appends a chat-list listener while the view stays signed out |
| Session.OnSendReply | app/src/main/java/com/example/chatapp/LCViewModel.kt:105-114 | exactly one new message document is stored, with the current profile's id, the text and the time stamp, and no other document changes |
| Session.SignInTracksAccount | app/src/main/java/com/example/chatapp/LCViewModel.kt:52-60 | the view shows "signed in" exactly when an account is signed in: start-up establishes it, and login, logout, sign-up and a profile edit preserve it |
| Session.SecondSignUpIsRejected | app/src/main/java/com/example/chatapp/LCViewModel.kt:124-140 | after a sign-up that creates the profile, a second sign-up with the same number reports "Number Already exists" and changes nothing else |
| Session.SentMessageIsShown | app/src/main/java/com/example/chatapp/LCViewModel.kt:65-72 | once a message listener delivers a batch holding the chat's stored documents, the shown list contains the sent message with its sender, text and stamp |
| Session.RenameAfterLinkReachesChat | app/src/main/java/com/example/chatapp/LCViewModel.kt:326-343 | after P1 links with P2 and P2 renames itself, the chat's second copy has the new name and its old number, and the first copy is untouched |

## Left out

- Firebase authentication, Firestore and Storage are not modelled as services. Each call's outcome is an input: `Call`, `AuthResult`, `Snapshot`, a generated id, or a download URL.
- Asynchrony is left out. Callbacks run in the order they appear in the code. Interleavings are not modelled, so neither are the read-then-write races in `signUp` and `onAddChat`.
- Listener deliveries are inputs, not queries over the store. The documents a listener receives, and their order, are whatever the transport delivers.
- Stored documents are always well-formed. In the code a document that does not deserialize makes `toObject` throw inside the listener callback, so the batch is not skipped past it; the model does not represent that case. Only a `toObject` that yields null is modelled, as `None` in a delivered batch.
- Writes whose result the code never observes (`set` in `onAddChat` and `onSendReply`, and the chat `update`s in the fan-out) either land or, where a parameter says so, are lost silently.
- A failed download-URL request after an upload has no handler in the code and is not modelled.
- The `inProgressChatMessage` and `inProcessChats` spinners, `Log` calls and `printStackTrace` are left out. The `inProcess` flag is modelled.
- `isDigitsOnly` accepts every Unicode digit. The model accepts only ASCII '0'..'9'.
- Kotlin's `String.compareTo` compares UTF-16 code units. The model compares Dafny characters by code point, which differs only for characters outside the Basic Multilingual Plane. Firestore's document-id order is approximated by the same order.
- Time stamps come from `Calendar.getInstance().time.toString()`. They are opaque strings ordered lexicographically, and no chronological order is claimed.
- Image upload paths (`images/<uuid>`) are not modelled.
- The collection-name constants live in a file that is not part of this model.
- The Compose screens, navigation and `MainActivity` are left out, except the "other participant" choice.
- `Event` is a value with a flag rather than a mutable object. Each read returns the updated event.

=== FILE: contacts.dfy ===
/**
 * `onAddChat(number)`: validates the number, looks for an existing chat
 * between the two numbers in either order, resolves the number to a
 * profile and creates the chat document.
 */
module Contacts {
  import opened Optional
  import opened Text
  import opened DataTypes
  import opened Remote
  import opened ViewState

  const DigitsOnlyMessage := "Field can have digits only"
  const ChatExistsMessage := "Chat already exists"
  const NotFoundMessage := "number not found"

  /** The input guard: not empty, and digits only. */
  predicate ValidNumber(number: string)
  {
    number != "" && IsDigitsOnly(number)
  }

  /**
   * The duplicate query: the chat pairs `number` with `mine`, in either
   * participant order.
   */
  predicate PairsWith(c: ChatData, number: string, mine: Option<string>)
  {
    || (c.user1.number == Some(number) && c.user2.number == mine)
    || (c.user1.number == mine && c.user2.number == Some(number))
  }

  /** The duplicate query matches exactly the chats whose two numbers are the pair, unordered. */
  lemma PairsWithIsUnordered(c: ChatData, number: string, mine: Option<string>)
    ensures PairsWith(c, number, mine)
        <==> multiset{c.user1.number, c.user2.number} == multiset{Some(number), mine}
  {
  }

  /** Swapping the participants does not change whether a chat pairs the two numbers. */
  lemma PairsWithIgnoresSlotOrder(c: ChatData, number: string, mine: Option<string>)
    ensures PairsWith(c, number, mine) <==> PairsWith(c.(user1 := c.user2, user2 := c.user1), number, mine)
  {
  }

  /** Some chat in the store already pairs the two numbers. */
  predicate ChatExists(chats: map<string, ChatData>, number: string, mine: Option<string>)
  {
    exists id :: id in chats && PairsWith(chats[id], number, mine)
  }

  /** `id` is the first document, in document-id order, of the profiles with this number. */
  predicate IsFirstMatch(users: map<string, UserData>, number: string, id: string)
  {
    && id in users
    && users[id].number == Some(number)
    && forall other :: other in users && users[other].number == Some(number) ==> LexLe(id, other)
  }

  /** No profile has this number. */
  predicate NoMatch(users: map<string, UserData>, number: string)
  {
    forall id :: id in users ==> users[id].number != Some(number)
  }

  /** The first match is unique. */
  lemma FirstMatchUnique(users: map<string, UserData>, number: string, a: string, b: string)
    requires IsFirstMatch(users, number, a) && IsFirstMatch(users, number, b)
    ensures a == b
  {
    LexLeAntisymmetric(a, b);
  }

  /**
   * The user lookup `whereEqualTo("number", number)` and `toObjects()[0]`:
   * the query lists matching documents by ascending document id, so the
   * first is the least id among the profiles with this number.
   */
  method FirstProfileWithNumber(users: map<string, UserData>, number: string) returns (r: Option<string>)
    ensures r.None? <==> NoMatch(users, number)
    ensures r.Some? ==> IsFirstMatch(users, number, r.value)
  {
    var remaining := users.Keys;
    r := None;
    while remaining != {}
      invariant remaining <= users.Keys
      invariant r.Some? ==> r.value in users && users[r.value].number == Some(number)
      invariant forall id :: id in users && id !in remaining && users[id].number == Some(number)
                  ==> r.Some? && LexLe(r.value, id)
      decreases remaining
    {
      var id :| id in remaining;
      if users[id].number == Some(number) {
        if r.None? {
          LexLeReflexive(id);
          r := Some(id);
        } else if !LexLe(r.value, id) {
          var prev := r.value;
          LexLeTotal(prev, id);
          forall other | other in users && other !in remaining && users[other].number == Some(number)
            ensures LexLe(id, other)
          {
            LexLeTransitive(id, prev, other);
          }
          LexLeReflexive(id);
          r := Some(id);
        }
      }
      remaining := remaining - {id};
    }
  }

  /** The embedded copy of a profile taken when the chat is created; all null without a profile. */
  function CopyOf(u: Option<UserData>): (c: ChatUser)
    ensures u.None? ==> c == ChatUser(None, None, None, None)
    ensures u.Some? ==> c.userId == u.value.userId && forall f :: ChatUserField(c, f) == UserField(u.value, f)
  {
    if u.None? then ChatUser(None, None, None, None)
    else ChatUser(u.value.userId, u.value.name, u.value.imageUrl, u.value.number)
  }

  /**
   * `onAddChat` once the user lookup has answered: `partner` is the first
   * profile with the number, or null when there is none. `existsQuery`,
   * `lookup` and `write` are the outcomes of the duplicate query, the user
   * lookup and the chat write; `freshId` is the id the store generates.
   * A failed duplicate query has no failure handler, so nothing happens.
   */
  function AddChat(vm: ViewModel, number: string, existsQuery: Call, lookup: Call,
                   partner: Option<string>, write: Call, freshId: string): (r: ViewModel)
    requires partner.None? ==> NoMatch(vm.db.users, number)
    requires partner.Some? ==> IsFirstMatch(vm.db.users, number, partner.value)
    ensures r.authUid == vm.authUid
    ensures r.db.users == vm.db.users && r.db.messages == vm.db.messages
    ensures forall id :: id in vm.db.chats && id != freshId ==> id in r.db.chats && r.db.chats[id] == vm.db.chats[id]
    ensures !ValidNumber(number) ==> r == vm.(view := HandleException(vm.view, None, DigitsOnlyMessage))
    ensures var mine := MyNumber(vm.view);
      ValidNumber(number) && existsQuery.Succeeds? && ChatExists(vm.db.chats, number, mine) ==>
        r == vm.(view := HandleException(vm.view, None, ChatExistsMessage))
    ensures ValidNumber(number) && existsQuery.Fails? ==> r == vm
    ensures ValidNumber(number) && existsQuery.Succeeds? && !ChatExists(vm.db.chats, number, MyNumber(vm.view))
            && lookup.Fails? ==>
      r == vm.(view := HandleException(vm.view, Some(lookup.error), ""))
    ensures ValidNumber(number) && existsQuery.Succeeds? && !ChatExists(vm.db.chats, number, MyNumber(vm.view))
            && lookup.Succeeds? && partner.None? ==>
      r == vm.(view := HandleException(vm.view, None, NotFoundMessage))
    ensures ValidNumber(number) && existsQuery.Succeeds? && !ChatExists(vm.db.chats, number, MyNumber(vm.view))
            && lookup.Succeeds? && partner.Some? && write.Fails? ==>
      r == vm
    ensures ValidNumber(number) && existsQuery.Succeeds? && !ChatExists(vm.db.chats, number, MyNumber(vm.view))
            && lookup.Succeeds? && partner.Some? && write.Succeeds? ==>
      r == vm.(db := vm.db.(chats := vm.db.chats[freshId := ChatData(Some(freshId), CopyOf(vm.view.userData),
                                                                     CopyOf(Some(vm.db.users[partner.value])))]))
    ensures r.db.chats != vm.db.chats ==>
      && ValidNumber(number)
      && existsQuery.Succeeds? && lookup.Succeeds? && write.Succeeds?
      && partner.Some?
      && !ChatExists(vm.db.chats, number, MyNumber(vm.view))
      && r.db.chats == vm.db.chats[freshId := ChatData(Some(freshId), CopyOf(vm.view.userData),
                                                        CopyOf(Some(vm.db.users[partner.value])))]
      && r.view == vm.view
  {
    var mine := MyNumber(vm.view);
    if !ValidNumber(number) then
      vm.(view := HandleException(vm.view, None, DigitsOnlyMessage))
    else if existsQuery.Fails? then vm
    else if ChatExists(vm.db.chats, number, mine) then
      vm.(view := HandleException(vm.view, None, ChatExistsMessage))
    else if lookup.Fails? then
      vm.(view := HandleException(vm.view, Some(lookup.error), ""))
    else if partner.None? then
      vm.(view := HandleException(vm.view, None, NotFoundMessage))
    else
      var chat := ChatData(Some(freshId), CopyOf(vm.view.userData), CopyOf(Some(vm.db.users[partner.value])));
      if write.Succeeds? then vm.(db := vm.db.(chats := vm.db.chats[freshId := chat])) else vm
  }

  /**
   * `onAddChat(number)`: runs the user lookup and then decides. When it
   * creates a chat, the chat has the fresh id, the current profile in the
   * first slot and the first profile with the number in the second; an
   * unknown number reports "number not found" and writes nothing.
   */
  method OnAddChat(vm: ViewModel, number: string, existsQuery: Call, lookup: Call,
                   write: Call, freshId: string) returns (r: ViewModel)
    ensures var mine := MyNumber(vm.view);
      ValidNumber(number) && existsQuery.Succeeds? && !ChatExists(vm.db.chats, number, mine)
      && lookup.Succeeds? && NoMatch(vm.db.users, number) ==>
        r == vm.(view := HandleException(vm.view, None, NotFoundMessage))
    ensures var mine := MyNumber(vm.view);
      ValidNumber(number) && existsQuery.Succeeds? && !ChatExists(vm.db.chats, number, mine)
      && lookup.Succeeds? && write.Succeeds? && !NoMatch(vm.db.users, number) ==>
        && r.db.chats.Keys == vm.db.chats.Keys + {freshId}
        && r.db.chats[freshId].chatId == Some(freshId)
        && r.db.chats[freshId].user1 == CopyOf(vm.view.userData)
        && (exists id :: IsFirstMatch(vm.db.users, number, id)
                         && r.db.chats[freshId].user2 == CopyOf(Some(vm.db.users[id])))
        && (forall id :: id in vm.db.chats && id != freshId ==> id in r.db.chats && r.db.chats[id] == vm.db.chats[id])
        && r.view == vm.view
    ensures !ValidNumber(number) ==> r == vm.(view := HandleException(vm.view, None, DigitsOnlyMessage))
    ensures ValidNumber(number) && existsQuery.Fails? ==> r == vm
    ensures ValidNumber(number) && existsQuery.Succeeds? && ChatExists(vm.db.chats, number, MyNumber(vm.view)) ==>
      r == vm.(view := HandleException(vm.view, None, ChatExistsMessage))
    ensures ValidNumber(number) && existsQuery.Succeeds? && !ChatExists(vm.db.chats, number, MyNumber(vm.view))
            && lookup.Fails? ==>
      r == vm.(view := HandleException(vm.view, Some(lookup.error), ""))
    ensures ValidNumber(number) && existsQuery.Succeeds? && !ChatExists(vm.db.chats, number, MyNumber(vm.view))
            && lookup.Succeeds? && !NoMatch(vm.db.users, number) && write.Fails? ==>
      r == vm
    ensures r.authUid == vm.authUid
    ensures r.db.users == vm.db.users && r.db.messages == vm.db.messages
    ensures forall id :: id in vm.db.chats && id != freshId ==> id in r.db.chats && r.db.chats[id] == vm.db.chats[id]
  {
    var partner := FirstProfileWithNumber(vm.db.users, number);
    r := AddChat(vm, number, existsQuery, lookup, partner, write, freshId);
  }

  /**
   * Linking is not repeated: once a chat for the number has been created,
   * asking again for the same number reports "Chat already exists" and
   * writes nothing, provided the current profile and the partner still
   * hold the numbers they were copied with.
   */
  lemma SecondLinkIsDuplicate(vm: ViewModel, number: string, partner: string, freshId: string,
                              existsQuery: Call, lookup: Call, write: Call, freshId2: string)
    requires ValidNumber(number)
    requires IsFirstMatch(vm.db.users, number, partner)
    requires var mine := MyNumber(vm.view);
             !ChatExists(vm.db.chats, number, mine)
    ensures var r := AddChat(vm, number, Succeeds, Succeeds, Some(partner), Succeeds, freshId);
      && r.db.chats != vm.db.chats
      && AddChat(r, number, Succeeds, lookup, Some(partner), write, freshId2)
         == r.(view := HandleException(r.view, None, ChatExistsMessage))
  {
    var r := AddChat(vm, number, Succeeds, Succeeds, Some(partner), Succeeds, freshId);
    var mine := MyNumber(vm.view);
    assert freshId in r.db.chats && PairsWith(r.db.chats[freshId], number, mine);
    assert freshId !in vm.db.chats || vm.db.chats[freshId] != r.db.chats[freshId];
  }

  /**
   * The participant a screen shows for a chat: the second one when the
   * viewer's id is the first one's, otherwise the first.
   */
  function OtherParticipant(c: ChatData, me: Option<string>): (u: ChatUser)
    ensures u == c.user1 || u == c.user2
    ensures c.user1.userId == me ==> u == c.user2
    ensures c.user1.userId != me ==> u == c.user1
  {
    if c.user1.userId == me then c.user2 else c.user1
  }

  /**
   * In a chat created by `onAddChat`, each side is shown the other's copy,
   * provided the two profiles have different ids.
   */
  lemma EachSideSeesTheOther(vm: ViewModel, number: string, partner: string, freshId: string)
    requires vm.view.userData.Some?
    requires ValidNumber(number) && IsFirstMatch(vm.db.users, number, partner)
    requires vm.db.users[partner].userId != vm.view.userData.value.userId
    requires !ChatExists(vm.db.chats, number, vm.view.userData.value.number)
    ensures var r := AddChat(vm, number, Succeeds, Succeeds, Some(partner), Succeeds, freshId);
      && OtherParticipant(r.db.chats[freshId], vm.view.userData.value.userId)
         == CopyOf(Some(vm.db.users[partner]))
      && OtherParticipant(r.db.chats[freshId], vm.db.users[partner].userId)
         == CopyOf(vm.view.userData)
  {
  }
}

=== FILE: data_types.dfy ===
/**
 * The records the application stores and displays. Every field is a
 * nullable string defaulting to "", as in the Kotlin data classes.
 */
module DataTypes {
  import opened Optional

  /** A profile document. */
  datatype UserData = UserData(
    userId: Option<string>,
    name: Option<string>,
    number: Option<string>,
    imageUrl: Option<string>)

  /** The copy of a participant's profile embedded in a chat document. */
  datatype ChatUser = ChatUser(
    userId: Option<string>,
    name: Option<string>,
    imageUrl: Option<string>,
    number: Option<string>)

  /** A chat document: its id and the two participants' embedded copies. */
  datatype ChatData = ChatData(chatId: Option<string>, user1: ChatUser, user2: ChatUser)

  /** A message document. */
  datatype Message = Message(
    sendBy: Option<string>,
    message: Option<string>,
    timeStamp: Option<string>)

  /** The three profile fields a user can edit, shared by profile and chat documents. */
  datatype Field = Name | Number | ImageUrl

  /** The field's name inside a document. */
  function FieldName(f: Field): string
  {
    match f
    case Name => "name"
    case Number => "number"
    case ImageUrl => "imageUrl"
  }

  lemma FieldNameInjective(f: Field, g: Field)
    requires FieldName(f) == FieldName(g)
    ensures f == g
  {
  }

  function UserField(u: UserData, f: Field): Option<string>
  {
    match f
    case Name => u.name
    case Number => u.number
    case ImageUrl => u.imageUrl
  }

  function ChatUserField(u: ChatUser, f: Field): Option<string>
  {
    match f
    case Name => u.name
    case Number => u.number
    case ImageUrl => u.imageUrl
  }

  /** `u` with field `f` set to `v`: the effect of a one-field document update. */
  function WithUserField(u: UserData, f: Field, v: string): (r: UserData)
    ensures UserField(r, f) == Some(v)
    ensures forall g :: g != f ==> UserField(r, g) == UserField(u, g)
    ensures r.userId == u.userId
  {
    match f
    case Name => u.(name := Some(v))
    case Number => u.(number := Some(v))
    case ImageUrl => u.(imageUrl := Some(v))
  }

  /** `u` with field `f` set to `v`, for an embedded participant copy. */
  function WithChatUserField(u: ChatUser, f: Field, v: string): (r: ChatUser)
    ensures ChatUserField(r, f) == Some(v)
    ensures forall g :: g != f ==> ChatUserField(r, g) == ChatUserField(u, g)
    ensures r.userId == u.userId
  {
    match f
    case Name => u.(name := Some(v))
    case Number => u.(number := Some(v))
    case ImageUrl => u.(imageUrl := Some(v))
  }

  /** `UserData()`: every field is the empty string. */
  function DefaultUserData(): (u: UserData)
    ensures u.userId == Some("")
    ensures forall f :: UserField(u, f) == Some("")
  {
    UserData(Some(""), Some(""), Some(""), Some(""))
  }

  /** `ChatUser()`: every field is the empty string. */
  function DefaultChatUser(): (u: ChatUser)
    ensures u.userId == Some("")
    ensures forall f :: ChatUserField(u, f) == Some("")
  {
    ChatUser(Some(""), Some(""), Some(""), Some(""))
  }

  /** `ChatData()`: an empty id and two default participants. */
  function DefaultChatData(): (c: ChatData)
    ensures c.chatId == Some("")
    ensures c.user1 == c.user2
    ensures c.user1.userId == Some("") && forall f :: ChatUserField(c.user1, f) == Some("")
  {
    ChatData(Some(""), DefaultChatUser(), DefaultChatUser())
  }

  /** `Message()`: sender, text and time stamp are all the empty string. */
  function DefaultMessage(): (m: Message)
    ensures m.sendBy == Some("") && m.message == Some("") && m.timeStamp == Some("")
  {
    Message(Some(""), Some(""), Some(""))
  }

  /**
   * `UserData.toMap()`: the entries in insertion order (Kotlin's `mapOf`
   * keeps it). The id key is spelled "userid", unlike the field `userId`.
   */
  function ToMap(u: UserData): seq<(string, Option<string>)>
  {
    [("userid", u.userId), ("name", u.name), ("number", u.number), ("imageUrl", u.imageUrl)]
  }

  /** Map lookup `m[key]`: the value of the first entry with that key, or null when absent. */
  function Lookup(m: seq<(string, Option<string>)>, key: string): (r: Option<Option<string>>)
    ensures r.Some? <==> exists i :: 0 <= i < |m| && m[i].0 == key
    ensures r.Some? ==> exists i :: 0 <= i < |m| && m[i] == (key, r.value)
  {
    if m == [] then None
    else if m[0].0 == key then Some(m[0].1)
    else
      var r := Lookup(m[1..], key);
      assert r.Some? ==> exists i :: 0 <= i < |m[1..]| && m[1..][i] == (key, r.value);
      r
  }

  /** The keys of an entry list, in order. */
  function Keys(m: seq<(string, Option<string>)>): seq<string>
  {
    seq(|m|, i requires 0 <= i < |m| => m[i].0)
  }

  /** Reading a profile back from its `toMap()` form; null when a key is missing. */
  function FromMap(m: seq<(string, Option<string>)>): Option<UserData>
  {
    var id := Lookup(m, "userid");
    var name := Lookup(m, "name");
    var number := Lookup(m, "number");
    var image := Lookup(m, "imageUrl");
    if id.Some? && name.Some? && number.Some? && image.Some? then
      Some(UserData(id.value, name.value, number.value, image.value))
    else None
  }

  /**
   * `toMap()` has exactly the keys "userid", "name", "number", "imageUrl" in
   * that order, each key looks up its field, and reading the map back gives
   * the profile.
   */
  lemma ToMapRoundTrip(u: UserData)
    ensures Keys(ToMap(u)) == ["userid", "name", "number", "imageUrl"]
    ensures Lookup(ToMap(u), "userid") == Some(u.userId)
    ensures forall f :: Lookup(ToMap(u), FieldName(f)) == Some(UserField(u, f))
    ensures FromMap(ToMap(u)) == Some(u)
  {
    var m := ToMap(u);
    ToMapLookups(u);
    forall f ensures Lookup(m, FieldName(f)) == Some(UserField(u, f)) {
      match f
      case Name =>
      case Number =>
      case ImageUrl =>
    }
  }

  lemma ToMapLookups(u: UserData)
    ensures Lookup(ToMap(u), "userid") == Some(u.userId)
    ensures Lookup(ToMap(u), "name") == Some(u.name)
    ensures Lookup(ToMap(u), "number") == Some(u.number)
    ensures Lookup(ToMap(u), "imageUrl") == Some(u.imageUrl)
  {
    var m := ToMap(u);
    var m1, m2, m3 := m[1..], m[2..], m[3..];
    assert m1[1..] == m2 && m2[1..] == m3;
    assert m1[0] == ("name", u.name) && m2[0] == ("number", u.number) && m3[0] == ("imageUrl", u.imageUrl);
    assert "userid" != "name" && "userid" != "number" && "userid" != "imageUrl";
    assert "name" != "number" && "name" != "imageUrl" && "number" != "imageUrl";
    assert Lookup(m3, "imageUrl") == Some(u.imageUrl);
    assert Lookup(m2, "number") == Some(u.number);
    assert Lookup(m2, "imageUrl") == Lookup(m3, "imageUrl");
    assert Lookup(m1, "name") == Some(u.name);
    assert Lookup(m1, "number") == Lookup(m2, "number");
    assert Lookup(m1, "imageUrl") == Lookup(m2, "imageUrl");
  }
}

=== FILE: edits.dfy ===
/**
 * The three optional arguments of a profile edit (`name`, `number`,
 * `imageUrl`, each null when not given) and the update map built from them.
 */
module Edits {
  import opened Optional
  import opened DataTypes

  datatype Edit = Edit(name: Option<string>, number: Option<string>, imageUrl: Option<string>)

  /** The argument given for field `f`, null when not given. */
  function Arg(e: Edit, f: Field): Option<string>
  {
    match f
    case Name => e.name
    case Number => e.number
    case ImageUrl => e.imageUrl
  }

  /**
   * The `updates` map built by `if (x != null) updates[key] = x` for each
   * argument: one entry per provided field, holding the provided value.
   */
  function Provided(e: Edit): (m: map<Field, string>)
    ensures forall f :: f in m <==> Arg(e, f).Some?
    ensures forall f :: f in m ==> m[f] == Arg(e, f).value
  {
    map f: Field | Arg(e, f).Some? :: Arg(e, f).value
  }

  /** No argument given. */
  predicate IsEmpty(e: Edit)
  {
    e.name.None? && e.number.None? && e.imageUrl.None?
  }

  lemma ProvidedEmptyIff(e: Edit)
    ensures Provided(e) == map[] <==> IsEmpty(e)
  {
    if !IsEmpty(e) {
      var f :| f in [Name, Number, ImageUrl] && Arg(e, f).Some?;
      assert f in Provided(e);
    }
  }
}

=== FILE: events.dfy ===
/**
 * The single-consumption wrapper used to hand errors and toasts to the
 * screens: the first read yields the content, every later read yields null.
 */
module Events {
  import opened Optional

  /** `Event<T>`: an immutable payload and the mutable "handled" flag. */
  datatype Event<T> = Event(content: T, hasBeenHandled: bool)

  /** A freshly constructed event: the flag starts false. */
  function NewEvent<T>(content: T): (e: Event<T>)
    ensures !e.hasBeenHandled
    ensures e.content == content
  {
    Event(content, false)
  }

  /**
   * `getContentOrNull()`: returns the value read and the event's state
   * after the read.
   */
  function GetContentOrNull<T>(e: Event<T>): (r: (Option<T>, Event<T>))
    ensures r.1.content == e.content
    ensures r.1.hasBeenHandled
    ensures r.0.Some? <==> !e.hasBeenHandled
    ensures r.0.Some? ==> r.0.value == e.content
  {
    if e.hasBeenHandled then (None, e)
    else (Some(e.content), e.(hasBeenHandled := true))
  }

  /** The values returned by `n` successive reads, and the final state. */
  function Reads<T>(e: Event<T>, n: nat): (r: (seq<Option<T>>, Event<T>))
    ensures |r.0| == n
    ensures r.1.content == e.content
    decreases n
  {
    if n == 0 then ([], e)
    else
      var (x, e') := GetContentOrNull(e);
      var (xs, e'') := Reads(e', n - 1);
      ([x] + xs, e'')
  }

  /** How many reads in `xs` returned a value. */
  function CountDelivered<T>(xs: seq<Option<T>>): nat
  {
    if xs == [] then 0
    else (if xs[0].Some? then 1 else 0) + CountDelivered(xs[1..])
  }

  /** Once handled, an event stays handled and yields nothing, however often it is read. */
  lemma {:induction false} HandledStaysHandled<T>(e: Event<T>, n: nat)
    requires e.hasBeenHandled
    ensures Reads(e, n).1 == e
    ensures forall i :: 0 <= i < n ==> Reads(e, n).0[i] == None
    ensures CountDelivered(Reads(e, n).0) == 0
  {
    if n > 0 {
      HandledStaysHandled(e, n - 1);
      var xs := Reads(e, n).0;
      assert xs == [None] + Reads(e, n - 1).0;
      assert xs[1..] == Reads(e, n - 1).0;
    }
  }

  /**
   * The flag is monotone: after any number of reads of an event it is
   * handled if it was handled before, and handled after at least one read.
   */
  lemma {:induction false} HandledIsMonotone<T>(e: Event<T>, n: nat)
    ensures e.hasBeenHandled ==> Reads(e, n).1.hasBeenHandled
    ensures n > 0 ==> Reads(e, n).1.hasBeenHandled
  {
    if n > 0 {
      var e' := GetContentOrNull(e).1;
      HandledStaysHandled(e', n - 1);
    }
  }

  /**
   * Exactly one read of a fresh event returns a value, it is the first
   * one, and it returns the content.
   */
  lemma {:induction false} DeliveredExactlyOnce<T>(content: T, n: nat)
    requires n > 0
    ensures Reads(NewEvent(content), n).0[0] == Some(content)
    ensures forall i :: 1 <= i < n ==> Reads(NewEvent(content), n).0[i] == None
    ensures CountDelivered(Reads(NewEvent(content), n).0) == 1
  {
    var e := NewEvent(content);
    var e' := GetContentOrNull(e).1;
    HandledStaysHandled(e', n - 1);
    var xs := Reads(e, n).0;
    assert xs == [Some(content)] + Reads(e', n - 1).0;
    assert xs[1..] == Reads(e', n - 1).0;
  }
}

=== FILE: optional.dfy ===
/** Kotlin's nullable types. `T?` is modelled as `Option<T>`, with `None` playing `null`. */
module Optional {

  datatype Option<+T> = None | Some(value: T) {

    /** Kotlin's elvis operator: `this ?: fallback`. */
    function OrElse(fallback: Option<T>): Option<T>
    {
      if Some? then this else fallback
    }
  }

}

=== FILE: profile.dfy ===
/**
 * `createOrUpdateProfile`: builds the full profile from the arguments and
 * the in-memory profile, then either creates the document or writes only
 * the provided fields, and on success fans the edit out to the chats.
 */
module Profile {
  import opened Optional
  import opened DataTypes
  import opened Events
  import opened Edits
  import opened Remote
  import opened ViewState
  import Propagation

  /**
   * The full record: the given id, and each field from its argument when
   * given, else from the in-memory profile, else null.
   */
  function MergeProfile(uid: Option<string>, current: Option<UserData>, e: Edit): (u: UserData)
    ensures u.userId == uid
    ensures forall f :: Arg(e, f).Some? ==> UserField(u, f) == Arg(e, f)
    ensures forall f :: Arg(e, f).None? && current.Some? ==> UserField(u, f) == UserField(current.value, f)
    ensures forall f :: Arg(e, f).None? && current.None? ==> UserField(u, f).None?
  {
    var fallback := (f: Field) => if current.Some? then UserField(current.value, f) else None;
    UserData(uid,
             e.name.OrElse(fallback(Name)),
             e.number.OrElse(fallback(Number)),
             e.imageUrl.OrElse(fallback(ImageUrl)))
  }

  /** The store's `update(updates)` on a profile document: each key overwrites its field. */
  function ApplyProfileUpdates(u: UserData, updates: map<Field, string>): (r: UserData)
    ensures r.userId == u.userId
    ensures forall f :: UserField(r, f) == if f in updates then Some(updates[f]) else UserField(u, f)
  {
    var r1 := if Name in updates then WithUserField(u, Name, updates[Name]) else u;
    var r2 := if Number in updates then WithUserField(r1, Number, updates[Number]) else r1;
    if ImageUrl in updates then WithUserField(r2, ImageUrl, updates[ImageUrl]) else r2
  }

  /**
   * The two branches agree: when the stored document equals the in-memory
   * profile, writing only the provided fields leaves exactly the record the
   * create branch would have written.
   */
  lemma PartialUpdateAgreesWithMerge(stored: UserData, uid: string, e: Edit)
    requires stored.userId == Some(uid)
    ensures ApplyProfileUpdates(stored, Provided(e)) == MergeProfile(Some(uid), Some(stored), e)
  {
  }

  /**
   * `createOrUpdateProfile(name, number, imageUrl)` for the signed-in
   * account. The environment supplies the outcomes of the document read, of
   * the write, of the chat query run by the fan-out, and the chats whose
   * fan-out update is lost. Without an account nothing happens.
   */
  function CreateOrUpdateProfile(vm: ViewModel, e: Edit, read: Call, write: Call,
                                 query: Call, lost: set<string>): (r: ViewModel)
    ensures r.authUid == vm.authUid && r.view.signIn == vm.view.signIn
    ensures r.db.messages == vm.db.messages
    ensures vm.authUid.None? ==> r == vm
    ensures read.Fails? ==> r.db == vm.db
    ensures read.Fails? && vm.authUid.Some? ==>
      r.view == HandleException(vm.view, Some(read.error), "Can not retrieve user")
    ensures r.db.users.Keys == vm.db.users.Keys + (if vm.authUid.Some? && write.Succeeds? && read.Succeeds? then {vm.authUid.value} else {})
    ensures forall id :: id in vm.db.users && Some(id) != vm.authUid ==> r.db.users[id] == vm.db.users[id]
    ensures write.Fails? ==> r.db == vm.db
    ensures vm.authUid.Some? && read.Succeeds? && write.Succeeds? ==>
      var uid := vm.authUid.value;
      if uid in vm.db.users then
        && r.db.users[uid].userId == vm.db.users[uid].userId
        && (forall f :: f in Provided(e) ==> UserField(r.db.users[uid], f) == Some(Provided(e)[f]))
        && (forall f :: f !in Provided(e) ==> UserField(r.db.users[uid], f) == UserField(vm.db.users[uid], f))
      else
        r.db.users[uid] == MergeProfile(vm.authUid, vm.view.userData, e)
    ensures vm.authUid.Some? && read.Succeeds? && write.Succeeds? && vm.authUid.value in vm.db.users ==>
      r.db.chats == Propagation.UpdateChatDocuments(vm.db, vm.authUid.value, e, query, lost).db.chats
    ensures !(vm.authUid.Some? && read.Succeeds? && write.Succeeds? && vm.authUid.value in vm.db.users) ==>
      r.db.chats == vm.db.chats
    ensures vm.authUid.Some? && read.Succeeds? && vm.authUid.value in vm.db.users && write.Fails? ==>
      r.view == HandleException(vm.view, Some(write.error), "Can not update user data")
    ensures vm.authUid.Some? && read.Succeeds? && (vm.authUid.value !in vm.db.users || write.Succeeds?) ==>
      r.view.profileListeners == vm.view.profileListeners + [vm.authUid.value]
    ensures vm.authUid.Some? && read.Succeeds? && vm.authUid.value in vm.db.users && write.Succeeds? && query.Fails? ==>
      r.view == HandleException(GetUserData(vm.view, vm.authUid.value), Some(query.error), "Error updating chat documents")
    ensures vm.authUid.Some? && read.Succeeds? && (vm.authUid.value !in vm.db.users || (write.Succeeds? && query.Succeeds?)) ==>
      r.view == GetUserData(vm.view, vm.authUid.value)
  {
    if vm.authUid.None? then vm
    else
      var uid := vm.authUid.value;
      var userData := MergeProfile(vm.authUid, vm.view.userData, e);
      var busy := vm.view.(inProcess := true);
      if read.Fails? then
        vm.(view := HandleException(busy, Some(read.error), "Can not retrieve user"))
      else if uid in vm.db.users then
        if write.Fails? then
          vm.(view := HandleException(busy.(inProcess := false), Some(write.error), "Can not update user data"))
        else
          var db := vm.db.(users := vm.db.users[uid := ApplyProfileUpdates(vm.db.users[uid], Provided(e))]);
          var view := GetUserData(busy.(inProcess := false), uid);
          var fanout := Propagation.UpdateChatDocuments(db, uid, e, query, lost);
          var view' := if fanout.error.Some? then
                         HandleException(view, fanout.error, "Error updating chat documents")
                       else view;
          vm.(db := fanout.db, view := view')
      else
        var db := if write.Succeeds? then vm.db.(users := vm.db.users[uid := userData]) else vm.db;
        vm.(db := db, view := GetUserData(busy.(inProcess := false), uid))
  }

  /**
   * `uploadProfileImage`: when the upload succeeds and yields the download
   * URL `url`, the profile edit sets only the image; a failed upload is
   * reported through `handleException` and changes nothing else.
   */
  function UploadProfileImage(vm: ViewModel, upload: Call, url: string, read: Call, write: Call,
                              query: Call, lost: set<string>): (r: ViewModel)
    ensures r.authUid == vm.authUid
    ensures vm.db.users.Keys <= r.db.users.Keys && r.db.chats.Keys == vm.db.chats.Keys
    ensures r.db.messages == vm.db.messages
    ensures forall id :: id in vm.db.users && Some(id) != vm.authUid ==> r.db.users[id] == vm.db.users[id]
    ensures forall id :: id in vm.db.chats && (vm.authUid.None? || !Propagation.Involves(vm.db.chats[id], vm.authUid.value)) ==>
              r.db.chats[id] == vm.db.chats[id]
    ensures upload.Fails? ==> r.db == vm.db
    ensures upload.Fails? ==> !r.view.inProcess && r.view.event == Some(NewEvent(ErrorMessage(Some(upload.error), "")))
    ensures upload.Fails? ==> r.view.(event := vm.view.event, inProcess := vm.view.inProcess) == vm.view
    ensures upload.Succeeds? && vm.authUid.None? ==> r == vm.(view := vm.view.(inProcess := false))
    ensures upload.Succeeds? && vm.authUid.Some? && read.Fails? ==>
      r.db == vm.db && r.view.event == Some(NewEvent("Can not retrieve user"))
    ensures upload.Succeeds? && vm.authUid.Some? && vm.authUid.value in vm.db.users
            && read.Succeeds? && write.Succeeds? ==>
      var uid := vm.authUid.value;
      && r.db.users[uid].userId == vm.db.users[uid].userId
      && r.db.users[uid].imageUrl == Some(url)
      && r.db.users[uid].name == vm.db.users[uid].name
      && r.db.users[uid].number == vm.db.users[uid].number
      && r.view.profileListeners == vm.view.profileListeners + [uid]
    ensures upload.Succeeds? && vm.authUid.Some? && vm.authUid.value !in vm.db.users
            && read.Succeeds? && write.Succeeds? ==>
      && vm.authUid.value in r.db.users
      && r.db.users[vm.authUid.value] == MergeProfile(vm.authUid, vm.view.userData, Edit(None, None, Some(url)))
      && r.db.users[vm.authUid.value].imageUrl == Some(url)
    ensures upload.Succeeds? && vm.authUid.Some? && vm.authUid.value in vm.db.users
            && read.Succeeds? && write.Succeeds? && query.Succeeds? ==>
      var uid := vm.authUid.value;
      forall id :: id in vm.db.chats && id !in lost && Propagation.Involves(vm.db.chats[id], uid) ==>
        var s := Propagation.MatchingSlot(vm.db.chats[id], uid).value;
        && Propagation.Participant(r.db.chats[id], s).imageUrl == Some(url)
        && Propagation.Participant(r.db.chats[id], s).name == Propagation.Participant(vm.db.chats[id], s).name
        && Propagation.Participant(r.db.chats[id], s).number == Propagation.Participant(vm.db.chats[id], s).number
        && Propagation.Participant(r.db.chats[id], Propagation.Other(s))
           == Propagation.Participant(vm.db.chats[id], Propagation.Other(s))
  {
    var busy := vm.(view := vm.view.(inProcess := true));
    if upload.Fails? then busy.(view := HandleException(busy.view, Some(upload.error), ""))
    else CreateOrUpdateProfile(busy.(view := busy.view.(inProcess := false)), Edit(None, None, Some(url)),
                               read, write, query, lost)
  }

  /**
   * An image upload rewrites only the image: the stored name and number stay
   * as they were, and in every chat the user's copy keeps its name and number.
   */
  lemma ImageUploadKeepsNameAndNumber(vm: ViewModel, url: string, query: Call, lost: set<string>)
    requires vm.authUid.Some? && vm.authUid.value in vm.db.users
    ensures var r := UploadProfileImage(vm, Succeeds, url, Succeeds, Succeeds, query, lost);
      var uid := vm.authUid.value;
      && r.db.users[uid].name == vm.db.users[uid].name
      && r.db.users[uid].number == vm.db.users[uid].number
      && r.db.users[uid].imageUrl == Some(url)
      && forall id :: id in vm.db.chats && Propagation.Involves(vm.db.chats[id], uid) ==>
           var s := Propagation.MatchingSlot(vm.db.chats[id], uid).value;
           && Propagation.Participant(r.db.chats[id], s).name == Propagation.Participant(vm.db.chats[id], s).name
           && Propagation.Participant(r.db.chats[id], s).number == Propagation.Participant(vm.db.chats[id], s).number
  {
  }
}

=== FILE: propagation.dfy ===
/**
 * `updateChatDocuments`: after a profile edit, every chat document that
 * embeds the user gets the edited fields written into that user's copy,
 * and only there.
 */
module Propagation {
  import opened Optional
  import opened DataTypes
  import opened Edits
  import opened Remote

  /** The two participant slots of a chat document. */
  datatype Slot = User1 | User2

  function Participant(c: ChatData, s: Slot): ChatUser
  {
    if s == User1 then c.user1 else c.user2
  }

  function Other(s: Slot): Slot
  {
    if s == User1 then User2 else User1
  }

  /** A key of the `updates` map: a nested field path such as "user1.name". */
  datatype PatchKey = PatchKey(slot: Slot, field: Field)

  /** The dotted field path a key denotes. */
  function Path(k: PatchKey): string
  {
    (if k.slot == User1 then "user1." else "user2.") + FieldName(k.field)
  }

  /** Distinct keys name distinct paths, so a patch is a well-defined set of writes. */
  lemma PathInjective(k: PatchKey, l: PatchKey)
    requires Path(k) == Path(l)
    ensures k == l
  {
    var pk := if k.slot == User1 then "user1." else "user2.";
    var pl := if l.slot == User1 then "user1." else "user2.";
    assert Path(k)[4] == pk[4] && Path(l)[4] == pl[4];
    assert Path(k)[6..] == FieldName(k.field);
    assert Path(l)[6..] == FieldName(l.field);
    FieldNameInjective(k.field, l.field);
  }

  /** The query filter: the user is participant 1 or participant 2. */
  predicate Involves(c: ChatData, uid: string)
  {
    c.user1.userId == Some(uid) || c.user2.userId == Some(uid)
  }

  /** The slot whose copy belongs to `uid`; the first slot wins when both match. */
  function MatchingSlot(c: ChatData, uid: string): (s: Option<Slot>)
    ensures s == Some(User1) <==> c.user1.userId == Some(uid)
    ensures s == Some(User2) <==> c.user1.userId != Some(uid) && c.user2.userId == Some(uid)
    ensures s.None? <==> !Involves(c, uid)
    ensures s.Some? ==> Participant(c, s.value).userId == Some(uid)
  {
    if c.user1.userId == Some(uid) then Some(User1)
    else if c.user2.userId == Some(uid) then Some(User2)
    else None
  }

  /**
   * The `updates` map for one chat: under the matching slot, one key per
   * provided field with the provided value; empty when no slot matches.
   */
  function ChatPatch(c: ChatData, uid: string, e: Edit): (p: map<PatchKey, string>)
    ensures MatchingSlot(c, uid).None? ==> p == map[]
    ensures MatchingSlot(c, uid).Some? ==>
      forall k :: k in p <==> k.slot == MatchingSlot(c, uid).value && k.field in Provided(e)
    ensures forall k :: k in p ==> p[k] == Provided(e)[k.field]
    ensures p == map[] <==> !Involves(c, uid) || IsEmpty(e)
  {
    ProvidedEmptyIff(e);
    var slot := MatchingSlot(c, uid);
    if slot.None? then map[]
    else
      var p := map f | f in Provided(e) :: PatchKey(slot.value, f) := Provided(e)[f];
      assert !IsEmpty(e) ==> exists f :: f in Provided(e) && PatchKey(slot.value, f) in p;
      p
  }

  /** Sets the fields of one embedded copy that the patch names. */
  function PatchCopy(u: ChatUser, s: Slot, p: map<PatchKey, string>): ChatUser
  {
    var u1 := if PatchKey(s, Name) in p then WithChatUserField(u, Name, p[PatchKey(s, Name)]) else u;
    var u2 := if PatchKey(s, Number) in p then WithChatUserField(u1, Number, p[PatchKey(s, Number)]) else u1;
    if PatchKey(s, ImageUrl) in p then WithChatUserField(u2, ImageUrl, p[PatchKey(s, ImageUrl)]) else u2
  }

  /**
   * The document store's `update(updates)`: each key overwrites the nested
   * field it names; everything else in the document is kept.
   */
  function ApplyPatch(c: ChatData, p: map<PatchKey, string>): (r: ChatData)
    ensures r.chatId == c.chatId
    ensures forall s :: Participant(r, s).userId == Participant(c, s).userId
    ensures forall s, f :: ChatUserField(Participant(r, s), f)
                        == (if PatchKey(s, f) in p then Some(p[PatchKey(s, f)])
                            else ChatUserField(Participant(c, s), f))
  {
    ChatData(c.chatId, PatchCopy(c.user1, User1, p), PatchCopy(c.user2, User2, p))
  }

  /**
   * One iteration of the loop over the queried chats: the patched document,
   * or null when the patch is empty and no update is issued. The user's
   * own copy takes every provided field and keeps the rest; the chat id,
   * the copy's user id and the other participant are untouched.
   */
  function UpdateChat(c: ChatData, uid: string, e: Edit): (r: Option<ChatData>)
    ensures r.None? <==> !Involves(c, uid) || IsEmpty(e)
    ensures r.Some? ==> r.value.chatId == c.chatId
    ensures r.Some? ==>
      var s := MatchingSlot(c, uid).value;
      && Participant(r.value, Other(s)) == Participant(c, Other(s))
      && Participant(r.value, s).userId == Some(uid)
      && forall f :: ChatUserField(Participant(r.value, s), f)
                     == Arg(e, f).OrElse(ChatUserField(Participant(c, s), f))
  {
    var p := ChatPatch(c, uid, e);
    if p == map[] then None
    else
      var r := ApplyPatch(c, p);
      var s := MatchingSlot(c, uid).value;
      assert Participant(r, Other(s)) == Participant(c, Other(s)) by {
        var o := Participant(c, Other(s));
        var q := Participant(r, Other(s));
        assert ChatUserField(q, Name) == ChatUserField(o, Name);
        assert ChatUserField(q, Number) == ChatUserField(o, Number);
        assert ChatUserField(q, ImageUrl) == ChatUserField(o, ImageUrl);
      }
      Some(r)
  }

  /** What the fan-out did: the store after it, the chats it wrote, and the error it reported. */
  datatype Fanout = Fanout(db: Store, written: set<string>, error: Option<Exception>)

  /**
   * `updateChatDocuments(uid, name, number, imageUrl)`. `query` is the
   * outcome of the chat query; when it fails the store is unchanged and the
   * error is reported with "Error updating chat documents". Updates are not
   * awaited: `lost` holds the chats whose update never lands.
   */
  function UpdateChatDocuments(db: Store, uid: string, e: Edit, query: Call, lost: set<string>): (r: Fanout)
    ensures r.db.users == db.users && r.db.messages == db.messages
    ensures r.db.chats.Keys == db.chats.Keys
    ensures query.Fails? ==> r.db == db && r.written == {} && r.error == Some(query.error)
    ensures query.Succeeds? ==> r.error.None?
    ensures query.Succeeds? ==>
      forall id :: id in r.written <==> id in db.chats && UpdateChat(db.chats[id], uid, e).Some?
    ensures forall id :: id in db.chats && (id !in r.written || id in lost) ==> r.db.chats[id] == db.chats[id]
    ensures forall id :: id in r.written && id !in lost ==> r.db.chats[id] == UpdateChat(db.chats[id], uid, e).value
  {
    if query.Fails? then Fanout(db, {}, Some(query.error))
    else
      var written := set id | id in db.chats && UpdateChat(db.chats[id], uid, e).Some?;
      var chats := map id | id in db.chats ::
        if id in written && id !in lost then UpdateChat(db.chats[id], uid, e).value else db.chats[id];
      Fanout(db.(chats := chats), written, None)
  }

  /**
   * After a successful fan-out, every chat that embeds the user and whose
   * update landed shows each provided field in the user's copy and keeps
   * every unprovided one; chats without the user are untouched, and an edit
   * with no fields writes nothing.
   */
  lemma PropagationReachesEveryChat(db: Store, uid: string, e: Edit, lost: set<string>)
    ensures var r := UpdateChatDocuments(db, uid, e, Succeeds, lost);
      && (forall id :: id in db.chats && !Involves(db.chats[id], uid) ==> r.db.chats[id] == db.chats[id])
      && (IsEmpty(e) ==> r.written == {} && r.db == db)
      && (forall id :: id in db.chats && id !in lost && Involves(db.chats[id], uid) ==>
            var s := MatchingSlot(db.chats[id], uid).value;
            && Participant(r.db.chats[id], Other(s)) == Participant(db.chats[id], Other(s))
            && forall f :: ChatUserField(Participant(r.db.chats[id], s), f)
                           == Arg(e, f).OrElse(ChatUserField(Participant(db.chats[id], s), f)))
  {
  }
}

=== FILE: remote.dfy ===
/**
 * The remote services as values. The document store is an in-memory
 * value; the result of every remote call is an input supplied by the
 * environment rather than something the model computes.
 */
module Remote {
  import opened Optional
  import opened DataTypes

  /** A thrown exception; only its `localizedMessage` is observable. */
  datatype Exception = Exception(localizedMessage: Option<string>)

  /** The outcome of one asynchronous remote call, as its callback reports it. */
  datatype Call = Succeeds | Fails(error: Exception)

  /** What a snapshot listener's callback receives: a value or an error. */
  datatype Snapshot<T> = Value(value: T) | Error(error: Exception)

  /** A message document's address: its chat and its own id. */
  datatype MessageKey = MessageKey(chatId: string, docId: string)

  /**
   * The document store: the user collection and the chat collection keyed
   * by document id, and the per-chat message sub-collections.
   */
  datatype Store = Store(
    users: map<string, UserData>,
    chats: map<string, ChatData>,
    messages: map<MessageKey, Message>)
}

=== FILE: session.dfy ===
/**
 * The account operations of the view-model: start-up, `signUp`, `login`,
 * `logout`, and sending a message.
 */
module Session {
  import opened Optional
  import opened DataTypes
  import opened Events
  import opened Edits
  import opened Remote
  import opened ViewState
  import opened Snapshots
  import Profile
  import Contacts
  import Propagation

  const SignUpFieldsMessage := "Please fill all the fields "
  const LoginFieldsMessage := "Please fill all the fields"
  const NumberTakenMessage := "Number Already exists"
  const SignUpFailedMessage := "Sign Up failed"
  const LoginFailedMessage := "Log in failed"
  const LoggedOutMessage := "Logged Out"

  /** What the authentication service answers: the account's id, or an exception. */
  datatype AuthResult = Authenticated(uid: string) | Rejected(error: Exception)

  /**
   * The `init` block: signed in exactly when an account is remembered, in
   * which case its profile listener is registered.
   */
  function Init(authUid: Option<string>, db: Store): (vm: ViewModel)
    ensures vm.authUid == authUid && vm.db == db
    ensures vm.view.inProcess == authUid.Some? && vm.view.currentChatMessageListener.None?
    ensures vm.view.signIn <==> authUid.Some?
    ensures vm.view.profileListeners == if authUid.Some? then [authUid.value] else []
    ensures vm.view.userData.None? && vm.view.chats == [] && vm.view.chatMessages == []
    ensures vm.view.event.None? && vm.view.messageListeners == [] && vm.view.rosterListeners == []
  {
    var v := EmptyView.(signIn := authUid.Some?);
    ViewModel(authUid, db, if authUid.Some? then GetUserData(v, authUid.value) else v)
  }

  /**
   * `signUp(name, number, email, password)`. `numberQuery` is the outcome of
   * the uniqueness query (it has no failure handler), `account` the
   * authentication service's answer, and the remaining inputs are those of
   * the profile creation that follows.
   */
  function SignUp(vm: ViewModel, name: string, number: string, email: string, password: string,
                  numberQuery: Call, account: AuthResult,
                  read: Call, write: Call, query: Call, lost: set<string>): (r: ViewModel)
    ensures name == "" || number == "" || email == "" || password == "" ==>
      r == vm.(view := HandleException(vm.view, None, SignUpFieldsMessage))
    ensures name != "" && number != "" && email != "" && password != "" && numberQuery.Fails? ==>
      r == vm.(view := vm.view.(inProcess := true))
    ensures name != "" && number != "" && email != "" && password != "" && numberQuery.Succeeds?
            && !Contacts.NoMatch(vm.db.users, number) ==>
      r == vm.(view := HandleException(vm.view, None, NumberTakenMessage))
    ensures name != "" && number != "" && email != "" && password != "" && numberQuery.Succeeds?
            && Contacts.NoMatch(vm.db.users, number) && account.Rejected? ==>
      r == vm.(view := HandleException(vm.view, Some(account.error), SignUpFailedMessage))
    ensures name != "" && number != "" && email != "" && password != "" && numberQuery.Succeeds?
            && Contacts.NoMatch(vm.db.users, number) && account.Authenticated? ==>
      r.view.signIn && r.authUid == Some(account.uid)
    ensures r.view.signIn != vm.view.signIn || r.authUid != vm.authUid || r.db != vm.db ==>
      && name != "" && number != "" && email != "" && password != ""
      && numberQuery.Succeeds? && Contacts.NoMatch(vm.db.users, number) && account.Authenticated?
      && r.view.signIn && r.authUid == Some(account.uid)
    ensures name != "" && number != "" && email != "" && password != "" && numberQuery.Succeeds?
            && Contacts.NoMatch(vm.db.users, number) && account.Authenticated?
            && read.Succeeds? && write.Succeeds? && account.uid !in vm.db.users ==>
      && account.uid in r.db.users
      && r.db.users[account.uid].userId == Some(account.uid)
      && r.db.users[account.uid].name == Some(name)
      && r.db.users[account.uid].number == Some(number)
  {
    var busy := vm.view.(inProcess := true);
    if name == "" || number == "" || email == "" || password == "" then
      vm.(view := HandleException(busy, None, SignUpFieldsMessage))
    else if numberQuery.Fails? then vm.(view := busy)
    else if !Contacts.NoMatch(vm.db.users, number) then
      vm.(view := HandleException(busy, None, NumberTakenMessage).(inProcess := false))
    else if account.Rejected? then
      vm.(view := HandleException(busy, Some(account.error), SignUpFailedMessage))
    else
      var signedIn := ViewModel(Some(account.uid), vm.db, busy.(signIn := true));
      Profile.CreateOrUpdateProfile(signedIn, Edit(Some(name), Some(number), None), read, write, query, lost)
  }

  /** `login(email, password)`: `account` is the authentication service's answer. */
  function Login(vm: ViewModel, email: string, password: string, account: AuthResult): (r: ViewModel)
    ensures r.db == vm.db
    ensures email == "" || password == "" ==>
      r == vm.(view := HandleException(vm.view, None, LoginFieldsMessage))
    ensures email != "" && password != "" && account.Rejected? ==>
      r == vm.(view := HandleException(vm.view, Some(account.error), LoginFailedMessage))
    ensures email != "" && password != "" && account.Authenticated? ==>
      && r.authUid == Some(account.uid)
      && r.view.signIn
      && r.view.inProcess
      && r.view.profileListeners == vm.view.profileListeners + [account.uid]
    ensures email != "" && password != "" && account.Authenticated? ==>
      r.view.(signIn := vm.view.signIn, inProcess := vm.view.inProcess,
              profileListeners := vm.view.profileListeners) == vm.view
    ensures r.view.signIn != vm.view.signIn ==> email != "" && password != "" && account.Authenticated?
  {
    if email == "" || password == "" then
      vm.(view := HandleException(vm.view, None, LoginFieldsMessage))
    else
      var busy := vm.view.(inProcess := true);
      match account
      case Rejected(e) => vm.(view := HandleException(busy, Some(e), LoginFailedMessage))
      case Authenticated(uid) =>
        var v := busy.(signIn := true, inProcess := false);
        ViewModel(Some(uid), vm.db, GetUserData(v, uid))
  }

  /**
   * `logout()`: signs out, forgets the profile, clears the open
   * conversation and publishes "Logged Out". The chat list is kept, and no
   * listener is removed.
   */
  function Logout(vm: ViewModel): (r: ViewModel)
    ensures r.authUid.None? && !r.view.signIn && r.view.userData.None?
    ensures r.view.chatMessages == [] && r.view.currentChatMessageListener.None?
    ensures r.view.event == Some(NewEvent(LoggedOutMessage))
    ensures r.view.chats == vm.view.chats
    ensures r.view.messageListeners == vm.view.messageListeners
    ensures r.view.rosterListeners == vm.view.rosterListeners
    ensures r.view.profileListeners == vm.view.profileListeners
    ensures r.view.inProcess == vm.view.inProcess
    ensures r.db == vm.db
  {
    var v := vm.view.(signIn := false, userData := None);
    var v' := DePopulateMessage(v).(currentChatMessageListener := None);
    ViewModel(None, vm.db, Publish(v', LoggedOutMessage))
  }

  /** The view shows "signed in" exactly when an account is signed in. */
  predicate SignInMatchesAccount(vm: ViewModel)
  {
    vm.view.signIn <==> vm.authUid.Some?
  }

  /**
   * The sign-in flag follows the account: `init` establishes it, and
   * `login`, `logout`, `signUp` and a profile edit preserve it.
   */
  lemma SignInTracksAccount(vm: ViewModel, authUid: Option<string>, db: Store,
                            name: string, number: string, email: string, password: string,
                            numberQuery: Call, account: AuthResult, e: Edit,
                            read: Call, write: Call, query: Call, lost: set<string>)
    ensures SignInMatchesAccount(Init(authUid, db))
    ensures SignInMatchesAccount(vm) ==>
      && SignInMatchesAccount(Login(vm, email, password, account))
      && SignInMatchesAccount(Logout(vm))
      && SignInMatchesAccount(SignUp(vm, name, number, email, password, numberQuery, account,
                                     read, write, query, lost))
      && SignInMatchesAccount(Profile.CreateOrUpdateProfile(vm, e, read, write, query, lost))
  {
    if SignInMatchesAccount(vm) {
      LoginKeepsSignInMatch(vm, email, password, account);
      SignUpKeepsSignInMatch(vm, name, number, email, password, numberQuery, account, read, write, query, lost);
    }
  }

  /** `login` keeps the sign-in flag matched to the account. */
  lemma LoginKeepsSignInMatch(vm: ViewModel, email: string, password: string, account: AuthResult)
    requires SignInMatchesAccount(vm)
    ensures SignInMatchesAccount(Login(vm, email, password, account))
  {
  }

  /** `signUp` keeps the sign-in flag matched to the account. */
  lemma SignUpKeepsSignInMatch(vm: ViewModel, name: string, number: string, email: string, password: string,
                               numberQuery: Call, account: AuthResult,
                               read: Call, write: Call, query: Call, lost: set<string>)
    requires SignInMatchesAccount(vm)
    ensures SignInMatchesAccount(SignUp(vm, name, number, email, password, numberQuery, account,
                                        read, write, query, lost))
  {
  }

  /**
   * A number is registered once: after a sign-up that creates the profile,
   * a second sign-up with the same number reports "Number Already exists"
   * and changes nothing else.
   */
  lemma SecondSignUpIsRejected(vm: ViewModel, name: string, number: string, email: string, password: string,
                               uid: string, query: Call, lost: set<string>,
                               name2: string, email2: string, password2: string, account2: AuthResult,
                               read2: Call, write2: Call, query2: Call, lost2: set<string>)
    requires name != "" && number != "" && email != "" && password != ""
    requires name2 != "" && email2 != "" && password2 != ""
    requires Contacts.NoMatch(vm.db.users, number) && uid !in vm.db.users
    ensures var r := SignUp(vm, name, number, email, password, Succeeds, Authenticated(uid),
                            Succeeds, Succeeds, query, lost);
      SignUp(r, name2, number, email2, password2, Succeeds, account2, read2, write2, query2, lost2)
      == r.(view := HandleException(r.view, None, NumberTakenMessage))
  {
  }

  /**
   * Logging out does not silence the profile listener: after a login and a
   * logout the listener registered at login is still there, and a delivery
   * from it brings the profile back and registers one more chat-list
   * listener while the view stays signed out.
   */
  lemma LogoutLeavesProfileListenerActive(vm: ViewModel, email: string, password: string, uid: string,
                                          doc: Option<UserData>)
    requires email != "" && password != ""
    ensures uid in Logout(Login(vm, email, password, Authenticated(uid))).view.profileListeners
    ensures var w := OnProfileSnapshot(Logout(Login(vm, email, password, Authenticated(uid))).view, Value(doc));
      && !w.signIn
      && w.userData == doc
      && w.rosterListeners == vm.view.rosterListeners + [MyUserId(w)]
  {
  }

  /**
   * `onSendReply(chatId, message)`: stores a new message document under
   * the chat, sent by the current profile's id, stamped with `time`; `docId`
   * is the id the store generates. Nothing else changes.
   */
  function OnSendReply(vm: ViewModel, chatId: string, message: string, time: string, docId: string): (r: ViewModel)
    ensures r.db.messages.Keys == vm.db.messages.Keys + {MessageKey(chatId, docId)}
    ensures r.db.messages[MessageKey(chatId, docId)].message == Some(message)
    ensures r.db.messages[MessageKey(chatId, docId)].timeStamp == Some(time)
    ensures r.db.messages[MessageKey(chatId, docId)].sendBy == MyUserId(vm.view)
    ensures forall k :: k in vm.db.messages && k != MessageKey(chatId, docId) ==>
              k in r.db.messages && r.db.messages[k] == vm.db.messages[k]
    ensures r.db.users == vm.db.users && r.db.chats == vm.db.chats && r.view == vm.view
  {
    var sender := MyUserId(vm.view);
    var msg := Message(sender, Some(message), Some(time));
    vm.(db := vm.db.(messages := vm.db.messages[MessageKey(chatId, docId) := msg]))
  }

  /**
   * A sent message reaches the screen: once a message listener delivers a
   * batch holding the chat's stored documents, the shown list contains the
   * new message with its sender, text and stamp.
   */
  lemma {:induction false} SentMessageIsShown(vm: ViewModel, chatId: string, message: string, time: string,
                                              docId: string, v: View, from: nat, docs: seq<Option<Message>>)
    requires from < |v.messageListeners|
    requires var r := OnSendReply(vm, chatId, message, time, docId);
      forall k :: k in r.db.messages && k.chatId == chatId ==> Some(r.db.messages[k]) in docs
    ensures Message(MyUserId(vm.view), Some(message), Some(time))
            in OnMessagesSnapshot(v, from, Value(docs)).chatMessages
  {
    var r := OnSendReply(vm, chatId, message, time, docId);
    var msg := r.db.messages[MessageKey(chatId, docId)];
    assert msg == Message(MyUserId(vm.view), Some(message), Some(time));
    assert Some(msg) in docs;
    var j :| 0 <= j < |docs| && docs[j] == Some(msg);
    assert msg in Decoded(docs);
    assert msg in multiset(Decoded(docs));
  }

  /**
   * The end-to-end story: P1 links with P2's number, creating a chat with P1
   * in the first slot and P2 in the second; P2 then renames itself, and the
   * chat's second slot shows the new name while the first slot is untouched.
   */
  lemma RenameAfterLinkReachesChat(vm1: ViewModel, p1: string, p2: string, number: string,
                                   freshId: string, view2: View, newName: string)
    requires p1 != p2
    requires vm1.view.userData.Some? && vm1.view.userData.value.userId == Some(p1)
    requires Contacts.ValidNumber(number)
    requires Contacts.IsFirstMatch(vm1.db.users, number, p2)
    requires vm1.db.users[p2].userId == Some(p2)
    requires !Contacts.ChatExists(vm1.db.chats, number, vm1.view.userData.value.number)
    ensures var linked := Contacts.AddChat(vm1, number, Succeeds, Succeeds, Some(p2), Succeeds, freshId);
      var renamed := Profile.CreateOrUpdateProfile(ViewModel(Some(p2), linked.db, view2),
                                                   Edit(Some(newName), None, None),
                                                   Succeeds, Succeeds, Succeeds, {});
      && freshId in renamed.db.chats
      && renamed.db.chats[freshId].user2.name == Some(newName)
      && renamed.db.chats[freshId].user2.number == Some(number)
      && renamed.db.chats[freshId].user1 == Contacts.CopyOf(vm1.view.userData)
  {
    // Naming the chat, its matching slot and the fan-out keeps the proof small.
    var linked := Contacts.AddChat(vm1, number, Succeeds, Succeeds, Some(p2), Succeeds, freshId);
    var e := Edit(Some(newName), None, None);
    var c := linked.db.chats[freshId];
    assert c.user1.userId == Some(p1) && c.user2.userId == Some(p2);
    assert Propagation.MatchingSlot(c, p2) == Some(Propagation.User2);
    var db := linked.db.(users := linked.db.users[p2 := Profile.ApplyProfileUpdates(linked.db.users[p2], Provided(e))]);
    Propagation.PropagationReachesEveryChat(db, p2, e, {});
    assert ChatUserField(c.user2, Number) == Some(number);
  }
}

=== FILE: snapshots.dfy ===
/**
 * The pure part of the two collection listeners: how a delivered batch of
 * documents becomes the list shown on screen. A document whose
 * `toObject` yields null is `None` here and is dropped, never failing the
 * batch; messages are then ordered by their time-stamp string.
 */
module Snapshots {
  import opened Optional
  import opened Text
  import opened DataTypes

  /** `docs.mapNotNull { it.toObject() }`: the decodable records, in delivered order. */
  function Decoded<T>(docs: seq<Option<T>>): (r: seq<T>)
    ensures |r| <= |docs|
    ensures forall i :: 0 <= i < |r| ==> Some(r[i]) in docs
    ensures forall j :: 0 <= j < |docs| && docs[j].Some? ==> docs[j].value in r
  {
    if docs == [] then []
    else
      var rest := Decoded(docs[1..]);
      assert forall j :: 1 <= j < |docs| ==> docs[j] == docs[1..][j - 1];
      (if docs[0].Some? then [docs[0].value] else []) + rest
  }

  /** Decoding treats each document on its own: it distributes over concatenation. */
  lemma {:induction false} DecodedAppend<T>(a: seq<Option<T>>, b: seq<Option<T>>)
    ensures Decoded(a + b) == Decoded(a) + Decoded(b)
  {
    if a == [] {
      assert a + b == b;
    } else {
      var tl := a[1..];
      assert (a + b)[0] == a[0];
      assert (a + b)[1..] == tl + b;
      DecodedAppend(tl, b);
      ConcatAssoc(if a[0].Some? then [a[0].value] else [], Decoded(tl), Decoded(b));
    }
  }

  /**
   * A document whose `toObject` yields null, anywhere in the batch, is
   * skipped and costs nothing else.
   */
  lemma NullDecodingSkipped<T>(a: seq<Option<T>>, b: seq<Option<T>>)
    ensures Decoded(a + [None] + b) == Decoded(a) + Decoded(b)
  {
    var none: seq<Option<T>> := [None];
    DecodedAppend(a + none, b);
    DecodedAppend(a, none);
    assert none[1..] == [];
    assert Decoded(none) == [];
    assert Decoded(a) + Decoded(none) == Decoded(a);
  }

  /** When every document decodes, the list is the batch itself, in delivered order. */
  lemma {:induction false} DecodedKeepsOrder<T>(docs: seq<Option<T>>)
    requires forall i :: 0 <= i < |docs| ==> docs[i].Some?
    ensures |Decoded(docs)| == |docs|
    ensures forall i :: 0 <= i < |docs| ==> Decoded(docs)[i] == docs[i].value
  {
    if docs != [] {
      DecodedKeepsOrder(docs[1..]);
    }
  }

  /**
   * Kotlin's `compareValues` on a nullable string, as used by `sortedBy`:
   * null sorts before every string, strings compare lexicographically.
   */
  predicate KeyLe(a: Option<string>, b: Option<string>)
  {
    a.None? || (b.Some? && LexLe(a.value, b.value))
  }

  lemma KeyLeTotal(a: Option<string>, b: Option<string>)
    ensures KeyLe(a, b) || KeyLe(b, a)
  {
    if a.Some? && b.Some? {
      LexLeTotal(a.value, b.value);
    }
  }

  lemma KeyLeReflexive(a: Option<string>)
    ensures KeyLe(a, a)
  {
    if a.Some? {
      LexLeReflexive(a.value);
    }
  }

  lemma KeyLeTransitive(a: Option<string>, b: Option<string>, c: Option<string>)
    requires KeyLe(a, b) && KeyLe(b, c)
    ensures KeyLe(a, c)
  {
    if a.Some? {
      LexLeTransitive(a.value, b.value, c.value);
    }
  }

  predicate StampLe(m: Message, n: Message)
  {
    KeyLe(m.timeStamp, n.timeStamp)
  }

  /** Ascending by time stamp. */
  predicate SortedByTimeStamp(s: seq<Message>)
  {
    forall i, j :: 0 <= i < j < |s| ==> StampLe(s[i], s[j])
  }

  /** The messages of `s` carrying time stamp `k`, in their order in `s`. */
  function WithStamp(s: seq<Message>, k: Option<string>): seq<Message>
  {
    if s == [] then []
    else (if s[0].timeStamp == k then [s[0]] else []) + WithStamp(s[1..], k)
  }

  lemma {:induction false} WithStampAppend(a: seq<Message>, b: seq<Message>, k: Option<string>)
    ensures WithStamp(a + b, k) == WithStamp(a, k) + WithStamp(b, k)
  {
    if a == [] {
      assert a + b == b;
    } else {
      var tl := a[1..];
      assert a + b == [a[0]] + (tl + b);
      assert a == [a[0]] + tl;
      WithStampCons(a[0], tl + b, k);
      WithStampCons(a[0], tl, k);
      WithStampAppend(tl, b, k);
      ConcatAssoc(if a[0].timeStamp == k then [a[0]] else [], WithStamp(tl, k), WithStamp(b, k));
    }
  }

  lemma {:induction false} WithStampNone(s: seq<Message>, k: Option<string>)
    requires forall i :: 0 <= i < |s| ==> s[i].timeStamp != k
    ensures WithStamp(s, k) == []
  {
    if s != [] {
      WithStampNone(s[1..], k);
    }
  }

  /** Places `m` after every message of `s` whose stamp does not exceed its own. */
  function Insert(m: Message, s: seq<Message>): (r: seq<Message>)
    ensures multiset(r) == multiset(s) + multiset{m}
  {
    if s == [] then [m]
    else if StampLe(s[0], m) then
      assert s == [s[0]] + s[1..];
      [s[0]] + Insert(m, s[1..])
    else [m] + s
  }

  lemma {:induction false} InsertSorted(m: Message, s: seq<Message>)
    requires SortedByTimeStamp(s)
    ensures SortedByTimeStamp(Insert(m, s))
  {
    if s == [] {
    } else if StampLe(s[0], m) {
      var t := Insert(m, s[1..]);
      InsertSorted(m, s[1..]);
      forall j | 0 <= j < |t| ensures StampLe(s[0], t[j]) {
        assert t[j] in multiset(t);
        if t[j] != m {
          assert t[j] in multiset(s[1..]);
          var i :| 0 <= i < |s[1..]| && s[1..][i] == t[j];
          assert s[i + 1] == t[j];
        }
      }
    } else {
      KeyLeTotal(s[0].timeStamp, m.timeStamp);
      forall j | 0 <= j < |s| ensures StampLe(m, s[j]) {
        if j > 0 {
          KeyLeTransitive(m.timeStamp, s[0].timeStamp, s[j].timeStamp);
        }
      }
    }
  }

  /**
   * The stamp filter of `[x] + t` is `x` when it carries the stamp,
   * followed by the filter of `t`.
   */
  lemma WithStampCons(x: Message, t: seq<Message>, k: Option<string>)
    ensures WithStamp([x] + t, k) == (if x.timeStamp == k then [x] else []) + WithStamp(t, k)
  {
  }

  lemma {:induction false} InsertStable(m: Message, s: seq<Message>, k: Option<string>)
    requires SortedByTimeStamp(s)
    ensures WithStamp(Insert(m, s), k)
         == WithStamp(s, k) + (if m.timeStamp == k then [m] else [])
    decreases |s|, 1
  {
    if s == [] {
      WithStampCons(m, [], k);
    } else if StampLe(s[0], m) {
      SortedTail(s);
      InsertStableAfterHead(m, s, k);
    } else {
      InsertStableBeforeHead(m, s, k);
    }
  }

  lemma {:induction false} InsertStableAfterHead(m: Message, s: seq<Message>, k: Option<string>)
    requires s != [] && SortedByTimeStamp(s[1..]) && StampLe(s[0], m)
    ensures WithStamp(Insert(m, s), k)
         == WithStamp(s, k) + (if m.timeStamp == k then [m] else [])
    decreases |s|, 0
  {
    var rest := s[1..];
    var t := Insert(m, rest);
    assert Insert(m, s) == [s[0]] + t;
    InsertStable(m, rest, k);
    assert s == [s[0]] + rest;
    ConsKeepsStampSuffix(s[0], rest, t, m, k);
  }

  lemma SortedTail(s: seq<Message>)
    requires SortedByTimeStamp(s) && s != []
    ensures SortedByTimeStamp(s[1..])
  {
  }

  /** Putting the same message in front of two lists keeps a suffix relation between their stamp lists. */
  lemma ConsKeepsStampSuffix(x: Message, rest: seq<Message>, t: seq<Message>, m: Message, k: Option<string>)
    requires WithStamp(t, k) == WithStamp(rest, k) + (if m.timeStamp == k then [m] else [])
    ensures WithStamp([x] + t, k) == WithStamp([x] + rest, k) + (if m.timeStamp == k then [m] else [])
  {
  }

  lemma ConcatAssoc<T>(a: seq<T>, b: seq<T>, c: seq<T>)
    ensures a + (b + c) == (a + b) + c
  {
  }

  lemma InsertStableBeforeHead(m: Message, s: seq<Message>, k: Option<string>)
    requires SortedByTimeStamp(s) && s != [] && !StampLe(s[0], m)
    ensures WithStamp(Insert(m, s), k)
         == WithStamp(s, k) + (if m.timeStamp == k then [m] else [])
  {
    assert Insert(m, s) == [m] + s;
    WithStampCons(m, s, k);
    if m.timeStamp == k {
      NoLaterStampEqual(m, s);
      WithStampNone(s, k);
    }
  }

  /** In a sorted list whose head stamp exceeds `m`'s, no message shares `m`'s stamp. */
  lemma NoLaterStampEqual(m: Message, s: seq<Message>)
    requires SortedByTimeStamp(s) && s != [] && !StampLe(s[0], m)
    ensures forall i :: 0 <= i < |s| ==> s[i].timeStamp != m.timeStamp
  {
    forall i | 0 <= i < |s| ensures s[i].timeStamp != m.timeStamp {
      if s[i].timeStamp == m.timeStamp && i == 0 {
        KeyLeReflexive(m.timeStamp);
      }
    }
  }

  /**
   * `sortedBy { it.timeStamp }`: ascending by time stamp, and stable, so
   * that the messages sharing any one stamp stay in the order they came.
   * Together the two determine the result, which is a permutation of `s`.
   */
  function SortByTimeStamp(s: seq<Message>): (r: seq<Message>)
    ensures SortedByTimeStamp(r)
    ensures multiset(r) == multiset(s)
    ensures forall k :: WithStamp(r, k) == WithStamp(s, k)
  {
    if s == [] then []
    else
      var p := s[..|s| - 1];
      var x := s[|s| - 1];
      assert s == p + [x];
      SortStep(p, x, SortByTimeStamp(p));
      Insert(x, SortByTimeStamp(p))
  }

  /** Inserting the next message into a sorted, stable arrangement of `p` sorts `p + [x]`. */
  lemma SortStep(p: seq<Message>, x: Message, q: seq<Message>)
    requires SortedByTimeStamp(q)
    requires multiset(q) == multiset(p)
    requires forall k :: WithStamp(q, k) == WithStamp(p, k)
    ensures SortedByTimeStamp(Insert(x, q))
    ensures multiset(Insert(x, q)) == multiset(p + [x])
    ensures forall k :: WithStamp(Insert(x, q), k) == WithStamp(p + [x], k)
  {
    InsertSorted(x, q);
    forall k ensures WithStamp(Insert(x, q), k) == WithStamp(p + [x], k) {
      InsertStable(x, q, k);
      WithStampAppend(p, [x], k);
      WithStampCons(x, [], k);
      assert [x] + [] == [x];
    }
  }

}

=== FILE: text.dfy ===
/** Character-level predicates and the string order used by the application. */
module Text {

  /** An ASCII decimal digit. */
  predicate IsAsciiDigit(c: char)
  {
    '0' <= c <= '9'
  }

  /**
   * Every character is a digit. Like Android's `isDigitsOnly`, the empty
   * string satisfies it; callers test emptiness separately.
   */
  predicate IsDigitsOnly(s: string)
  {
    forall i :: 0 <= i < |s| ==> IsAsciiDigit(s[i])
  }

  /**
   * `a.compareTo(b) <= 0` for Kotlin strings: characters are compared
   * left to right, and a proper prefix sorts first.
   */
  predicate LexLe(a: string, b: string)
    decreases |a|
  {
    if |a| == 0 then true
    else if |b| == 0 then false
    else if a[0] != b[0] then a[0] < b[0]
    else LexLe(a[1..], b[1..])
  }

  lemma {:induction false} LexLeReflexive(a: string)
    ensures LexLe(a, a)
    decreases |a|
  {
    if |a| > 0 {
      LexLeReflexive(a[1..]);
    }
  }

  lemma {:induction false} LexLeTotal(a: string, b: string)
    ensures LexLe(a, b) || LexLe(b, a)
    decreases |a|
  {
    if |a| > 0 && |b| > 0 && a[0] == b[0] {
      LexLeTotal(a[1..], b[1..]);
    }
  }

  lemma {:induction false} LexLeAntisymmetric(a: string, b: string)
    requires LexLe(a, b) && LexLe(b, a)
    ensures a == b
    decreases |a|
  {
    if |a| > 0 {
      LexLeAntisymmetric(a[1..], b[1..]);
      assert a == [a[0]] + a[1..];
      assert b == [b[0]] + b[1..];
    }
  }

  lemma {:induction false} LexLeTransitive(a: string, b: string, c: string)
    requires LexLe(a, b) && LexLe(b, c)
    ensures LexLe(a, c)
    decreases |a|
  {
    if |a| > 0 && |b| > 0 && |c| > 0 && a[0] == b[0] && b[0] == c[0] {
      LexLeTransitive(a[1..], b[1..], c[1..]);
    }
  }
}

=== FILE: view_state.dfy ===
/**
 * The view-model's observable state and the callbacks that change it:
 * error funnelling, the three snapshot listeners, and clearing the open
 * conversation.
 */
module ViewState {
  import opened Optional
  import opened DataTypes
  import opened Events
  import opened Remote
  import opened Snapshots

  /**
   * The state cells of the view-model. A listener registration is never
   * removed in the code, so each kind is an append-only list of what it
   * listens to; `currentChatMessageListener` indexes `messageListeners`.
   */
  datatype View = View(
    inProcess: bool,
    signIn: bool,
    userData: Option<UserData>,
    chats: seq<ChatData>,
    chatMessages: seq<Message>,
    event: Option<Event<string>>,
    currentChatMessageListener: Option<nat>,
    messageListeners: seq<string>,
    rosterListeners: seq<Option<string>>,
    profileListeners: seq<string>)

  /** The whole view-model: the signed-in account, the remote store and the view state. */
  datatype ViewModel = ViewModel(authUid: Option<string>, db: Store, view: View)

  /** Every cell is empty and no listener is registered. */
  const EmptyView := View(false, false, None, [], [], None, None, [], [], [])

  /**
   * The text an error event carries: the custom message when it is not
   * empty, else the exception's localized message, else "".
   */
  function ErrorMessage(exception: Option<Exception>, customMessage: string): (m: string)
    ensures customMessage != "" ==> m == customMessage
    ensures customMessage == "" && exception.Some? && exception.value.localizedMessage.Some?
            ==> m == exception.value.localizedMessage.value
    ensures customMessage == "" && (exception.None? || exception.value.localizedMessage.None?)
            ==> m == ""
  {
    var errorMsg := if exception.Some? then exception.value.localizedMessage.OrElse(Some("")).value else "";
    if customMessage == "" then errorMsg else customMessage
  }

  /** The current profile's id, `userData.value?.userId`. */
  function MyUserId(v: View): Option<string>
  {
    if v.userData.Some? then v.userData.value.userId else None
  }

  /** The current profile's number, `userData.value?.number`. */
  function MyNumber(v: View): Option<string>
  {
    if v.userData.Some? then v.userData.value.number else None
  }

  /** Replaces the current event with a fresh one, discarding an unread earlier one. */
  function Publish(v: View, message: string): View
  {
    v.(event := Some(NewEvent(message)))
  }

  /**
   * `handleException`: publishes the error text as a fresh event and clears
   * the busy flag; nothing else changes.
   */
  function HandleException(v: View, exception: Option<Exception>, customMessage: string): (r: View)
    ensures r.event.Some? && !r.event.value.hasBeenHandled
    ensures r.event.value.content == ErrorMessage(exception, customMessage)
    ensures !r.inProcess
    ensures r.(event := v.event, inProcess := v.inProcess) == v
  {
    Publish(v, ErrorMessage(exception, customMessage)).(inProcess := false)
  }

  /** The screen reads the current event: the first read of each event yields its text. */
  function ConsumeEvent(v: View): (r: (Option<string>, View))
    ensures v.event.None? ==> r.0.None? && r.1 == v
    ensures v.event.Some? ==> r.1.event.Some? && r.1.event.value.content == v.event.value.content
    ensures v.event.Some? ==> (r.0.Some? <==> !v.event.value.hasBeenHandled)
    ensures v.event.Some? ==> r.1.event.value.hasBeenHandled
    ensures r.0.Some? ==> r.0.value == v.event.value.content
    ensures r.1.(event := v.event) == v
  {
    if v.event.None? then (None, v)
    else
      var (x, e) := GetContentOrNull(v.event.value);
      (x, v.(event := Some(e)))
  }

  /**
   * Publishing is latest-wins: after two publishes with no read in between,
   * the one read that yields anything yields the second message.
   */
  lemma LatestEventWins(v: View, first: string, second: string)
    ensures ConsumeEvent(Publish(Publish(v, first), second)).0 == Some(second)
    ensures ConsumeEvent(ConsumeEvent(Publish(Publish(v, first), second)).1).0 == None
  {
  }

  /** `populateMessages(chatId)`: registers one more message listener and makes it current. */
  function PopulateMessages(v: View, chatId: string): (r: View)
    ensures r.messageListeners == v.messageListeners + [chatId]
    ensures r.currentChatMessageListener == Some(|v.messageListeners|)
    ensures r.(messageListeners := v.messageListeners,
               currentChatMessageListener := v.currentChatMessageListener) == v
  {
    v.(messageListeners := v.messageListeners + [chatId],
       currentChatMessageListener := Some(|v.messageListeners|))
  }

  /**
   * A message listener's callback. Any registered listener may deliver,
   * current or not: the batch replaces the shown messages with its decodable
   * ones sorted by time stamp, and an error goes through `handleException`.
   */
  function OnMessagesSnapshot(v: View, from: nat, snapshot: Snapshot<seq<Option<Message>>>): (r: View)
    requires from < |v.messageListeners|
    ensures snapshot.Error? ==> r == HandleException(v, Some(snapshot.error), "")
    ensures snapshot.Value? ==> r.(chatMessages := v.chatMessages) == v
    ensures snapshot.Value? ==> SortedByTimeStamp(r.chatMessages)
    ensures snapshot.Value? ==> multiset(r.chatMessages) == multiset(Decoded(snapshot.value))
    ensures snapshot.Value? ==>
      forall k :: WithStamp(r.chatMessages, k) == WithStamp(Decoded(snapshot.value), k)
  {
    match snapshot
    case Error(e) => HandleException(v, Some(e), "")
    case Value(docs) => v.(chatMessages := SortByTimeStamp(Decoded(docs)))
  }

  /**
   * `dePopulateMessage`: empties the shown messages and forgets the current
   * listener, but every registration stays active.
   */
  function DePopulateMessage(v: View): (r: View)
    ensures r.chatMessages == [] && r.currentChatMessageListener.None?
    ensures r.messageListeners == v.messageListeners
    ensures r.(chatMessages := v.chatMessages,
               currentChatMessageListener := v.currentChatMessageListener) == v
  {
    v.(chatMessages := [], currentChatMessageListener := None)
  }

  /**
   * Leaving chat A and opening chat B does not silence A: A's registration
   * is still active, and a batch it delivers after B's replaces what is
   * shown with A's messages.
   */
  lemma StaleListenerStillDelivers(v: View, a: string, b: string,
                                   docsA: seq<Option<Message>>, docsB: seq<Option<Message>>)
    ensures var n := |v.messageListeners|;
            var w := PopulateMessages(DePopulateMessage(PopulateMessages(v, a)), b);
            && w.messageListeners == v.messageListeners + [a, b]
            && w.currentChatMessageListener == Some(n + 1)
            && OnMessagesSnapshot(OnMessagesSnapshot(w, n + 1, Value(docsB)), n, Value(docsA)).chatMessages
               == SortByTimeStamp(Decoded(docsA))
  {
  }

  /** `getUserData(uid)`: sets the busy flag and registers one more profile listener. */
  function GetUserData(v: View, uid: string): (r: View)
    ensures r.profileListeners == v.profileListeners + [uid]
    ensures r.inProcess
    ensures r.(profileListeners := v.profileListeners, inProcess := v.inProcess) == v
  {
    v.(inProcess := true, profileListeners := v.profileListeners + [uid])
  }

  /**
   * The profile listener's callback. A document replaces the in-memory
   * profile (null when the document does not exist), clears the busy flag
   * and, on every delivery, registers one more chat-list listener filtered
   * on the new profile's id.
   */
  function OnProfileSnapshot(v: View, snapshot: Snapshot<Option<UserData>>): (r: View)
    ensures snapshot.Error? ==> r == HandleException(v, Some(snapshot.error), "Can not retrieve user")
    ensures snapshot.Value? ==> r.userData == snapshot.value && !r.inProcess
    ensures snapshot.Value? ==>
      r.rosterListeners == v.rosterListeners + [MyUserId(r)]
    ensures snapshot.Value? ==>
      r.(userData := v.userData, inProcess := v.inProcess, rosterListeners := v.rosterListeners) == v
  {
    match snapshot
    case Error(e) => HandleException(v, Some(e), "Can not retrieve user")
    case Value(doc) =>
      var w := v.(userData := doc, inProcess := false);
      PopulateChats(w)
  }

  /**
   * `populateChats()`: registers one more chat-list listener, filtered on the
   * current profile's id, after the earlier ones.
   */
  function PopulateChats(v: View): (r: View)
    ensures |r.rosterListeners| == |v.rosterListeners| + 1
    ensures r.rosterListeners[..|v.rosterListeners|] == v.rosterListeners
    ensures r.rosterListeners[|v.rosterListeners|] == MyUserId(v)
    ensures r.(rosterListeners := v.rosterListeners) == v
  {
    v.(rosterListeners := v.rosterListeners + [MyUserId(v)])
  }

  /** `n` profile deliveries register `n` chat-list listeners; none replaces another. */
  lemma {:induction false} RosterListenersAccumulate(v: View, docs: seq<Option<UserData>>)
    ensures |ProfileDeliveries(v, docs).rosterListeners| == |v.rosterListeners| + |docs|
    ensures v.rosterListeners <= ProfileDeliveries(v, docs).rosterListeners
    decreases |docs|
  {
    if docs != [] {
      var w := OnProfileSnapshot(v, Value(docs[0]));
      RosterListenersAccumulate(w, docs[1..]);
    }
  }

  /** The view after the profile listener delivers `docs` one by one. */
  function ProfileDeliveries(v: View, docs: seq<Option<UserData>>): View
    decreases |docs|
  {
    if docs == [] then v
    else ProfileDeliveries(OnProfileSnapshot(v, Value(docs[0])), docs[1..])
  }

  /**
   * A chat-list listener's callback: the list is replaced by the decodable
   * chats in delivered order; an error goes through `handleException`.
   */
  function OnChatsSnapshot(v: View, snapshot: Snapshot<seq<Option<ChatData>>>): (r: View)
    ensures snapshot.Error? ==> r == HandleException(v, Some(snapshot.error), "")
    ensures snapshot.Value? ==> r.(chats := v.chats) == v
    ensures snapshot.Value? ==> r.chats == Decoded(snapshot.value)
    ensures snapshot.Value? ==> forall i :: 0 <= i < |r.chats| ==> Some(r.chats[i]) in snapshot.value
    ensures snapshot.Value? ==>
      forall j :: 0 <= j < |snapshot.value| && snapshot.value[j].Some? ==> snapshot.value[j].value in r.chats
  {
    match snapshot
    case Error(e) => HandleException(v, Some(e), "")
    case Value(docs) => v.(chats := Decoded(docs))
  }
}
